=== FILE: README.md ===
# verdantops core, modelled in Dafny

verdantops is an API that estimates the energy and carbon of data workloads (Spark, SQL and
ML jobs), stores one row per run, and serves a "green score" and a list of emission
hotspots. This project models its core:

- **The estimator** (`engine.dfy`, module `Engine`). Energy is E = t(h) · P(kW) · U · PUE · nodes,
  and emissions are CO2e = E · CI. It includes the SKU power and regional intensity tables with
  their fallbacks (0.20 kW and 0.35 kg/kWh), the 1 ms duration floor, the [0.05, 1]
  utilization clamp and the 1.2 PUE.
- **Event ingestion** (`schema.dfy`, module `Schema`, and `ingest.dfy`, module `Ingest`):
  - the workload-event schema: which bodies it accepts, the defaults it fills in (1 ms,
    0.6 CPU, 1 node), and the top-level keys its flattened error names;
  - the mapping of a parsed event to the normalised usage payload;
  - the bearer-token gate both ingest routes share;
  - the required-key check of `/ingest/usage`;
  - the status each route answers with.
- **The score and hotspot queries** (`sql.dfy`, `workloads.dfy`, `greenscore.dfy` and
  `hotspots.dfy`):
  - the `workloads` table is a sequence of rows, and SQL's `SUM`, `AVG`, `MAX`, `COALESCE`,
    `GROUP BY`, `ORDER BY … DESC` and `LIMIT` are functions over it, with SQL's NULL rules;
  - the green-score arithmetic is a method that mirrors the handler's step-by-step updates
    and is proved against those functions.

Shared value shapes live in `values.dfy` (module `Values`):

- `Option` stands for `undefined` and SQL NULL.
- `Field` is a JSON member that may be absent, null or present.
- `Json` is a JSON value.
- `Truthy` is JavaScript truthiness.

Numbers are `real`. Timestamps are integer milliseconds since the epoch. The request time
`now` is a parameter.

## Model

| member | source | states |
|---|---|---|
| Values.Clamp | api/src/routes/green.ts:57 | `Math.max(lo, Math.min(hi, x))` lies in [lo, hi], is x inside the range and saturates at each end |
| Engine.PowerKw | api/src/carbon/engine.ts:37 | an unknown SKU draws 0.20 kW; every SKU draws between 0.20 and 0.60 kW |
| Engine.Hours | api/src/carbon/engine.ts:38 | the duration in hours is positive; at most 1 ms counts as 1 ms; otherwise hours · 3 600 000 is the duration |
| Engine.EffectiveUtilization | api/src/carbon/engine.ts:39 | utilization is clamped to [0.05, 1] and kept unchanged inside it |
| Engine.CarbonIntensity | api/src/carbon/engine.ts:46 | an unknown region uses 0.35 kg/kWh; every region lies in [0.20, 0.35] |
| Engine.EstimateEnergyKWh | api/src/carbon/engine.ts:36-41 | a positive node count uses a positive amount of energy; the per-node-hour range, the sign, linearity, the 1 ms floor, the utilization clamp and monotonicity are the lemmas below |
| Engine.EnergyPerNodeHour | api/src/carbon/engine.ts:36-41 | for a non-negative node count each node-hour draws between 0.012 kWh (lightest SKU at the 5 % floor) and 0.72 kWh (heaviest SKU at full load), PUE included |
| Engine.EstimateCO2eKg | api/src/carbon/engine.ts:44-48 | for a positive node count, emissions are positive and between 0.20 and 0.35 times the energy (the range of the regional intensities); a region missing from the table emits exactly 0.35 times the energy |
| Engine.EnergySign | api/src/carbon/engine.ts:36-41 | the energy has the sign of the node count (positive, zero or negative) |
| Engine.EnergyLinearInNodes | api/src/carbon/engine.ts:36-41 | the energy is additive and homogeneous in the node count |
| Engine.EnergyDurationFloor | api/src/carbon/engine.ts:38 | any duration of at most 1 ms gives the energy of exactly 1 ms |
| Engine.EnergyUtilizationClamp | api/src/carbon/engine.ts:39 | utilization below 0.05 or above 1 gives the energy of the nearer bound |
| Engine.EnergyMonotoneInDuration | api/src/carbon/engine.ts:36-41 | with a non-negative node count, a longer run never uses less energy |
| Engine.EnergyMonotoneInUtilization | api/src/carbon/engine.ts:36-41 | with a non-negative node count, higher utilization never uses less energy |
| Engine.EnergyProportionalToPower | api/src/carbon/engine.ts:14-41 | changing only the SKU scales the energy by the ratio of the two SKUs' table powers |
| Engine.EnergyUnknownSku | api/src/carbon/engine.ts:37 | a SKU missing from the table uses the energy of Standard_D8_v5, the 0.20 kW entry |
| Engine.EnergyIgnoresRegion | api/src/carbon/engine.ts:36-41 | the region does not change the energy |
| Engine.EmissionsProportionalToIntensity | api/src/carbon/engine.ts:25-48 | changing only the region scales the emissions by the ratio of the two regions' grid intensities |
| Engine.EmissionsUnknownRegion | api/src/carbon/engine.ts:46 | a region missing from the table emits what eastus, the 0.35 kg/kWh entry, emits |
| Engine.ExampleNC6WestEurope | api/src/carbon/engine.ts:14-48 | one hour on Standard_NC6s_v3 at full load in westeurope is 0.72 kWh and 0.144 kg CO2e |
| Engine.ExampleD8EastUs | api/src/carbon/engine.ts:14-48 | one hour on Standard_D8_v5 at 50 % in eastus is 0.12 kWh and 0.042 kg CO2e |
| Sql.Sum | api/src/routes/green.ts:92-94 | `SUM` is NULL exactly when every value is NULL; otherwise it is the sum of the non-NULL values |
| Sql.Avg | api/src/routes/green.ts:25 | `AVG` is NULL exactly when every value is NULL; otherwise it times the count of non-NULL values is their sum |
| Sql.ZeroSumUnitBounds | api/src/routes/green.ts:25 | values that are all present and in [0, 1] are all counted, and their sum lies in [0, n] |
| Sql.MaxTime | api/src/routes/green.ts:23 | `MAX` of timestamps is NULL exactly when all are NULL; otherwise it is one of the values and no value exceeds it |
| Sql.TextLeTotal | api/src/routes/green.ts:89-90 | the code-point order `MAX(text)` uses relates every two strings |
| Sql.TextLeTransitive | api/src/routes/green.ts:89-90 | that order is transitive |
| Sql.MaxText | api/src/routes/green.ts:89-90 | `MAX` of text is NULL exactly when all are NULL; otherwise it is one of the values and at least every value |
| Workloads.Window | api/src/routes/green.ts:21 | a row is in the window exactly when it is in the table and `from <= started_at < to` |
| Workloads.WindowKeepsCopies | api/src/routes/green.ts:17-22 | the window holds every copy of a row in it as often as the table does, and none of a row outside it |
| Workloads.WindowTotals | api/src/routes/green.ts:17-22 | the totals are the NULL-as-zero sums of emissions and of read plus written bytes over the window |
| Workloads.LatestEnded | api/src/routes/green.ts:23 | the latest end time is NULL exactly when no run has ended; otherwise it is some run's end and no run ended later |
| Workloads.PartitionAvg | api/src/routes/green.ts:24-28 | NULL exactly when the window is empty; otherwise it is the sum of the per-row fractions, a missing one counted as 0.5, divided by the number of rows in the window |
| Workloads.WindowTotalsAdditive | api/src/routes/green.ts:17-22 | the totals over [a, c) are the totals over [a, b) plus those over [b, c) |
| Workloads.BytesIO | api/src/routes/green.ts:19 | a row's bytes are read plus written with NULL read as 0 (each case stated), never negative for non-negative counts |
| Workloads.EmptyWindowTotals | api/src/routes/green.ts:17-22 | a window that holds none of the rows totals zero |
| Workloads.InvertedWindowTotals | api/src/routes/green.ts:17-22 | a window with `to <= from` holds nothing and totals zero |
| Workloads.PartitionAvgBounds | api/src/routes/green.ts:24-28 | with every stored fraction in [0, 1], the average lies in [0, 1] |
| Sql.AvgConstant | api/src/routes/green.ts:25 | the `AVG` of a non-empty column holding v in every entry is v |
| Workloads.PartitionAvgUniform | api/src/routes/green.ts:24-28 | when every row of a non-empty window stores the fraction v, the average is v, so the stored fraction is what is averaged |
| Workloads.PartitionAvgAllMissing | api/src/routes/green.ts:25 | a non-empty window with no stored fraction averages 0.5 |
| GreenScore.KgPerTB | api/src/routes/green.ts:38-39 | no bytes processed gives 0 kg/TB; otherwise kg/TB times the tebibytes is the emissions |
| GreenScore.EfficiencyScore | api/src/routes/green.ts:41-45 | in [0, 100]; 100 at or under the target or with a non-positive intensity or target; otherwise strictly between 0 and 100 with score · intensity = 100 · target |
| GreenScore.AgeHours | api/src/routes/green.ts:47-48 | no finished run gives an infinite age; otherwise the age in hours times 3 600 000 is `now` minus the last end |
| GreenScore.FreshnessScore | api/src/routes/green.ts:49-54 | in [0, 100]; 0 for an infinite or non-positive age or a non-positive target; 100 within the target; otherwise strictly between with score · age = 100 · target |
| GreenScore.PartitioningScore | api/src/routes/green.ts:56-57 | in [0, 100]; 50 for an empty window; 100 · average inside [0, 1]; clamped outside |
| GreenScore.ComputeGreenScore | api/src/routes/green.ts:36-59 | every figure of the response equals the score functions applied to the three queries' results, and the overall score (0.5 / 0.3 / 0.2 blend) lies in [0, 100] |
| GreenScore.NoBytesFullEfficiency | api/src/routes/green.ts:38-45 | a window that processed no bytes gets full efficiency marks whatever it emitted |
| GreenScore.EfficiencyAntitone | api/src/routes/green.ts:41-45 | a higher kg/TB never raises the efficiency score |
| GreenScore.FreshnessAntitone | api/src/routes/green.ts:49-54 | among positive ages, an older latest run never raises the freshness score |
| GreenScore.FreshnessZeroWhenNotInPast | api/src/routes/green.ts:48-50 | a latest run stamped at or after `now` scores 0 |
| GreenScore.OverallBounds | api/src/routes/green.ts:59 | the blend of three components in [0, 100] is in [0, 100] and is the common value when they agree |
| Hotspots.GroupKeys | api/src/routes/green.ts:98 | the distinct (source, run_id) keys of the rows, each exactly once |
| Hotspots.GroupKeysCount | api/src/routes/green.ts:98 | there are as many of them as there are distinct keys |
| Hotspots.GroupRows | api/src/routes/green.ts:97-98 | a group holds exactly the rows with its key, and is non-empty for a key that occurs |
| Hotspots.GroupKeepsCopies | api/src/routes/green.ts:91-98 | a group holds every copy of a row with its key as often as the window does, and none of other rows |
| Hotspots.AddRow | api/src/routes/green.ts:89-95 | folding one more row into a group's aggregate keeps its key, counts one more run, never leaves the byte sum NULL, and leaves emissions, energy or the latest end NULL only when both the row and the rest are NULL |
| Hotspots.Aggregate | api/src/routes/green.ts:86-98 | the aggregate of a group is labelled with the group's key; what it computes is stated by the next two rows |
| Hotspots.AggregateIsSelectList | api/src/routes/green.ts:86-95 | folding a group's rows one at a time yields exactly the select list over the group: `MAX` of compute type and region, `COUNT(*)`, the three `SUM`s and `MAX(ended_at)` |
| Hotspots.AggregateMeaning | api/src/routes/green.ts:86-95 | a group's row counts the group's rows (at least one for a key that occurs), sums emissions to NULL exactly when all are NULL and otherwise to their sum, never has a NULL byte sum for a key that occurs, and carries the latest end |
| Hotspots.Groups | api/src/routes/green.ts:85-98 | one aggregate row per distinct key of the window, each key once |
| Hotspots.Insert | api/src/routes/green.ts:99 | inserting into a list sorted by emissions descending (NULL first) keeps it sorted and adds exactly that row |
| Hotspots.SortByCo2eDesc | api/src/routes/green.ts:99 | the result is a permutation of the input, sorted by emissions descending with NULL first |
| Hotspots.SortKeepsKeysUnique | api/src/routes/green.ts:98-99 | sorting keeps one row per key |
| Hotspots.RankedGroups | api/src/routes/green.ts:85-99 | the ordered groups: one per distinct key of the window, each its key's aggregate, sorted, every key present |
| Hotspots.HotspotRows | api/src/routes/green.ts:85-102 | a negative or fractional limit, or one of 2^63 or more (beyond `bigint`), fails; otherwise the result is a prefix of the ranked groups of length min(limit, number of groups) |
| Hotspots.ToItem | api/src/routes/green.ts:106-116 | an item carries its row's key, compute type, region and latest end, the run count as a number, and each sum with NULL shown as 0 |
| Hotspots.HotspotItems | api/src/routes/green.ts:104-116 | the response items fail exactly when the query does, and item i is the JSON form of result row i |
| Hotspots.HotspotItemsMeaning | api/src/routes/green.ts:85-116 | each item names a group of the window and shows its number of runs (at least one), its emissions, energy and bytes summed with NULL as 0, and its latest end |
| Hotspots.HotspotItemsOrder | api/src/routes/green.ts:99-113 | items of groups with no emissions estimate show 0 and come first; every other item is listed after them, by non-increasing emissions; so a 0 kg item can precede a larger one |
| Hotspots.HotspotsShape | api/src/routes/green.ts:85-101 | the rows returned number min(limit, groups), are sorted, have distinct keys and are each their key's aggregate over the window |
| Hotspots.HotspotsTopN | api/src/routes/green.ts:99-100 | a group the limit leaves out ranks after every group listed |
| Hotspots.HotspotsComplete | api/src/routes/green.ts:98-100 | when the limit is at least the number of groups, every group of the window is listed |
| Schema.KindOf | api/src/schemas.ts:11 | the kind enum accepts exactly "spark", "sql" and "ml" |
| Schema.KindName | api/src/schemas.ts:11 | naming a kind and parsing the name gives the kind back |
| Schema.Valid | api/src/schemas.ts:4-30 | the event schema accepts a body exactly when all seven members are there and workload, metrics, timestamps and labels pass their own rules (no contract: its meaning is stated through the next rows) |
| Schema.FieldErrors | api/src/schemas.ts:4-30 | the flattened error's top-level keys are empty exactly when the body is accepted, and name each of the seven members exactly when that member is missing or wrong |
| Schema.Defaulted | api/src/schemas.ts:16-21 | a defaulted member takes its default when missing and its value when present |
| Schema.ApplyDefaults | api/src/schemas.ts:4-30 | an accepted body parses to a well-formed event; a missing duration, CPU or node count becomes 1, 0.6 or 1, and a present one is kept |
| Schema.SafeParse | api/src/schemas.ts:4-30 | on an object body, parsing succeeds exactly on accepted bodies, yields a well-formed event, and otherwise names at least one top-level key |
| Schema.SafeParseBody | api/src/schemas.ts:4-30 | on any body: one that is not a JSON object fails with a form error and no key; an object fails only with field errors and is otherwise parsed as above |
| Schema.LabelJson | api/src/schemas.ts:29 | every label value prints as a scalar JSON value that parses back to it |
| Schema.LabelsRoundTrip | api/src/schemas.ts:29 | a printed label record passes the schema and parses back to itself |
| Schema.ParseToRaw | api/src/schemas.ts:4-30 | every well-formed event, printed as a body, is accepted and parses to itself |
| Schema.ParseIdempotent | api/src/schemas.ts:4-30 | parsing a printed parsed event gives the same result as parsing the original body |
| Schema.MinimalEvent | api/src/schemas.ts:15-28 | an event with an empty `metrics` object and no start time parses with the defaults 1 ms, 0.6 CPU and one node |
| Schema.MissingMetricsRefused | api/src/schemas.ts:15-24 | a body without a `metrics` object is refused under `metrics`, although each member has a default |
| Ingest.LowerAscii | api/src/routes/ingest.ts:18 | lower-casing keeps the length, turns each upper-case ASCII letter into its lower-case letter (code point + 32) and leaves every other character unchanged |
| Ingest.LowerAsciiIdempotent | api/src/routes/ingest.ts:18 | lower-casing twice is lower-casing once |
| Ingest.Percent | api/src/routes/ingest.ts:12-14 | a fraction in [0, 1] becomes a percentage in [0, 100], zero exactly for zero |
| Ingest.CloudOf | api/src/routes/ingest.ts:16-18 | fails exactly when the `cloud` label is a number or a boolean; "azure" without the label; otherwise the label lower-cased character by character |
| Ingest.EventToPayload | api/src/routes/ingest.ts:8-36 | the mapping fails exactly when the cloud cannot be lower-cased, and its cloud is that of the labels |
| Ingest.PayloadRanges | api/src/routes/ingest.ts:12-14 | a well-formed event's payload has CPU in [0, 100], GPU (if any) in [0, 100], a positive whole node count and non-negative whole byte counts |
| Ingest.PayloadIdentity | api/src/routes/ingest.ts:20-22 | the source is the kind's name (and parses back to the kind), the run id is the external id, the end time is kept |
| Ingest.PayloadCarried | api/src/routes/ingest.ts:12-33 | the SKU, node count, byte counts and a given GPU type are carried unchanged, a given CPU or GPU fraction u is reported as u · 100, and DBUs, rows processed and the energy figure stay unset |
| Ingest.PayloadFallbacks | api/src/routes/ingest.ts:9-29 | a missing start time is the end time, a missing region is "eastus", missing labels give "azure", no GPU utilization stays unset, the GPU type is set exactly when given |
| Ingest.PayloadDefaults | api/src/routes/ingest.ts:13 | an event without CPU utilization is reported at 60 %, one without a node count as one node |
| Ingest.PayloadRequiredFields | api/src/routes/ingest.ts:17-21 | the source is never empty; the region is empty exactly when given as ""; the cloud is empty exactly when the label is "" |
| Ingest.IndexFrom | api/src/routes/ingest.ts:45 | the first occurrence of the pattern at or after a position, or none anywhere after it |
| Ingest.ReplaceFirst | api/src/routes/ingest.ts:45 | a string without the pattern is unchanged; otherwise the first occurrence is replaced and the text before and after it is kept |
| Ingest.PresentedToken | api/src/routes/ingest.ts:45 | no header presents no token; otherwise, with the first "Bearer " at index i, the token is the header without the seven characters from i, and a header with no "Bearer " is the token unchanged |
| Ingest.Authorized | api/src/routes/ingest.ts:46 | the gate passes when no or an empty token is configured, or when the presented token equals it (no contract: stated by the gate lemmas below) |
| Ingest.BearerStripped | api/src/routes/ingest.ts:45 | "Bearer t" presents the token t |
| Ingest.GateOpenWithoutToken | api/src/routes/ingest.ts:46 | with no or an empty configured token every request passes |
| Ingest.GateWithToken | api/src/routes/ingest.ts:45-48 | with a token configured, no header is refused and "Bearer t" passes exactly when t is the token |
| Ingest.GateBareToken | api/src/routes/ingest.ts:45-46 | the bare token without the scheme passes too |
| Ingest.FirstFalsyFrom | api/src/routes/ingest.ts:51-54 | the first key whose value is falsy, every earlier key being truthy; none exactly when all are truthy |
| Ingest.MissingKey | api/src/routes/ingest.ts:51-54 | the loop reports nothing exactly when every required key is truthy, and otherwise the first falsy key |
| Ingest.IngestUsage | api/src/routes/ingest.ts:42-56 | 401 exactly when the gate refuses; accepted exactly when it passes and every required key is truthy; a 400 names a falsy required key; never a 500 |
| Ingest.IngestEvents | api/src/routes/ingest.ts:67-83 | 401 exactly when the gate refuses; 400 exactly when the schema refuses, with a form error for a body that is not an object and otherwise the flattened field keys; 500 exactly when the cloud label is not a string; otherwise the event's payload |
| Ingest.UsageReportsFirstMissing | api/src/routes/ingest.ts:51-54 | the 400 names the first falsy key in the order source, cloud, regionCode, startedAt, endedAt |
| Ingest.EventsAcceptedRanges | api/src/routes/ingest.ts:73-80 | an accepted event's payload carries CPU and GPU utilization as percentages in [0, 100] |

## Left out

- Storing and estimating usage (`CarbonEngine.computeAndInsert`), budgets and alerts: their code is not part of this model, so an accepted ingest request ends at the payload handed over.
- Rounding: the six-decimal rounding and the `toFixed(2)` of the scores and of the overall score are not modelled. Scores are exact reals.
- ISO-8601 strings: parsing and printing are not modelled. Timestamps are milliseconds, and `z.string().datetime()` is not checked.
- Query-string parsing of `from`, `to`, `targetKgPerTB`, `targetFreshnessHours` and `limit`: their defaults (30 days, now, 5, 24, 10) and `Number(...)` of a malformed value (NaN) are not modelled. They are parameters.
- The SQL I/O and the database module: the table is a sequence of rows. The `raw` JSON column enters only as an optional partition fraction.
- GreenScore.AgeHours: the clock is the parameter `now`.
- Hotspots.SortByCo2eDesc: SQL leaves the order of equal emissions unspecified. The model fixes one order (groups by the last appearance of their key in the window, kept by a stable sort), and the lemmas state only what SQL guarantees.
- Sql.MaxText: text is compared by code point (C collation). Other database collations are not modelled.
- Hotspots.HotspotRows: a NaN limit is not modelled. Negative, fractional and out-of-`bigint` limits fail.
- Ingest.LowerAscii: only ASCII letters are lower-cased. Unicode case mapping is not modelled.
- Schema.Valid: a member of the wrong JSON type (a string where a number belongs, say) is not modelled. Members are typed, and only missing, null and out-of-range values are.
- Schema.FieldErrors: the error's messages and its per-member detail are not modelled. It gives the top-level keys of the flattened error.
- A SKU or region named after a JavaScript object-prototype member (such as "constructor") is looked up as an unknown key. The source would read the prototype member instead.
- `/ingest/usage` bodies that are not JSON objects: the framework's body schema rejects them, so the model takes an object.
- `mem_gb`, `name`, `event_type`, `org_id` and `project_id` are validated and carried, but the payload does not use them.
- The health and metrics routes, the server bootstrap and the web front end are not part of this model.

=== FILE: engine.dfy ===
/** The energy and emissions estimator: E = t(h) * P(kW) * U * PUE * nodes, CO2e = E * CI. */
module Engine {
  import opened Values

  datatype CarbonInputs = CarbonInputs(
    region: string,       // e.g. "eastus"
    resourceSku: string,  // VM or GPU node type
    durationMs: real,
    utilization: real)    // 0..1, CPU or GPU, whichever dominates

  /** Approximate average platform power per node under load, in kW. */
  const SkuPowerKw: map<string, real> := map[
    "Standard_D8_v5" := 0.20,
    "Standard_E8_v5" := 0.24,
    "Standard_NC4as_T4_v3" := 0.35,
    "Standard_NC6s_v3" := 0.60]

  /** Grid carbon intensity per region, in kg CO2e per kWh. */
  const RegionCiKgPerKwh: map<string, real> := map[
    "eastus" := 0.35,
    "westus2" := 0.30,
    "westeurope" := 0.20,
    "uksouth" := 0.23]

  const FallbackPowerKw: real := 0.20
  const FallbackCiKgPerKwh: real := 0.35
  const ProviderPue: real := 1.2
  const MinUtilization: real := 0.05

  /** Per-node power of a SKU; an unknown SKU draws the fallback 0.20 kW. */
  function PowerKw(sku: string): (p: real)
    ensures sku !in SkuPowerKw ==> p == 0.20
    ensures 0.20 <= p <= 0.60
  {
    if sku in SkuPowerKw then SkuPowerKw[sku] else FallbackPowerKw
  }

  /** Duration in hours, with the duration floored at one millisecond. */
  function Hours(durationMs: real): (t: real)
    ensures t > 0.0
    ensures durationMs <= 1.0 ==> t == 1.0 / 3600000.0
    ensures 1.0 <= durationMs ==> t * 3600000.0 == durationMs
  {
    Max(durationMs, 1.0) / MsPerHour
  }

  /** Utilization clamped into [0.05, 1]. */
  function EffectiveUtilization(u: real): (r: real)
    ensures 0.05 <= r <= 1.0
    ensures 0.05 <= u <= 1.0 ==> r == u
    ensures u <= 0.05 ==> r == 0.05
    ensures 1.0 <= u ==> r == 1.0
  {
    Min(Max(u, MinUtilization), 1.0)
  }

  /** Estimated energy in kWh; `nodes` defaults to one node. Every factor but the node
      count is positive, so a positive node count uses a positive amount of energy. */
  function EstimateEnergyKWh(inp: CarbonInputs, nodes: real := 1.0): (e: real)
    ensures nodes > 0.0 ==> e > 0.0
  {
    Hours(inp.durationMs) * PowerKw(inp.resourceSku) * EffectiveUtilization(inp.utilization) * ProviderPue * nodes
  }

  /** Per node-hour a run draws between 0.012 kWh (the lightest SKU at the utilization
      floor) and 0.72 kWh (the heaviest SKU at full load), PUE included. */
  lemma EnergyPerNodeHour(inp: CarbonInputs, nodes: real)
    requires nodes >= 0.0
    ensures 0.012 * (Hours(inp.durationMs) * nodes) <= EstimateEnergyKWh(inp, nodes)
    ensures EstimateEnergyKWh(inp, nodes) <= 0.72 * (Hours(inp.durationMs) * nodes)
  {
    var t, p, u := Hours(inp.durationMs), PowerKw(inp.resourceSku), EffectiveUtilization(inp.utilization);
    EnergyFactorBounds(t, p, u, nodes, EstimateEnergyKWh(inp, nodes));
  }

  /** Bounds of the energy product e = t * P * U * PUE * n from the bounds of its factors. */
  lemma EnergyFactorBounds(t: real, p: real, u: real, n: real, e: real)
    requires t > 0.0 && 0.20 <= p <= 0.60 && 0.05 <= u <= 1.0
    requires e == t * p * u * ProviderPue * n
    ensures n > 0.0 ==> e > 0.0
    ensures n >= 0.0 ==> 0.012 * (t * n) <= e <= 0.72 * (t * n)
  {
    var k := p * u * ProviderPue;
    MulMono(0.20, p, u);
    MulMono(p, 0.60, u);
    assert 0.20 * u <= p * u <= 0.60 * u;
    assert 0.01 <= p * u <= 0.60;
    assert 0.012 <= k <= 0.72;
    assert e == k * (t * n);
    if n > 0.0 {
      PositiveProduct(t, p, u, ProviderPue);
      assert t * p * u * ProviderPue > 0.0;
    }
    if n >= 0.0 {
      MulMono(0.0, t, n);
      MulMono(0.012, k, t * n);
      MulMono(k, 0.72, t * n);
    }
  }

  /** Grid intensity of a region; an unknown region uses the fallback 0.35 kg/kWh. */
  function CarbonIntensity(region: string): (ci: real)
    ensures region !in RegionCiKgPerKwh ==> ci == 0.35
    ensures 0.20 <= ci <= 0.35
  {
    if region in RegionCiKgPerKwh then RegionCiKgPerKwh[region] else FallbackCiKgPerKwh
  }

  /** Estimated emissions in kg CO2e. */
  function EstimateCO2eKg(inp: CarbonInputs, nodes: real := 1.0): (c: real)
    ensures nodes > 0.0 ==> 0.0 < c <= 0.35 * EstimateEnergyKWh(inp, nodes)
    ensures nodes > 0.0 ==> 0.20 * EstimateEnergyKWh(inp, nodes) <= c
    ensures inp.region !in RegionCiKgPerKwh ==> c == 0.35 * EstimateEnergyKWh(inp, nodes)
  {
    var e := EstimateEnergyKWh(inp, nodes);
    var ci := CarbonIntensity(inp.region);
    EnergySign(inp, nodes);
    ScaleBounds(e, ci, 0.20, 0.35);
    e * ci
  }

  // ---------------------------------------------------------------------------
  // Arithmetic helpers

  lemma PositiveProduct(a: real, b: real, c: real, d: real)
    requires a > 0.0 && b > 0.0 && c > 0.0 && d > 0.0
    ensures a * b * c * d > 0.0
  {
    assert a * b > 0.0;
    assert a * b * c > 0.0;
  }

  lemma MulMono(a: real, b: real, k: real)
    requires a <= b && k >= 0.0
    ensures a * k <= b * k
  {
  }

  lemma ScaleBounds(e: real, ci: real, lo: real, hi: real)
    requires lo <= ci <= hi
    ensures e > 0.0 ==> lo * e <= e * ci <= hi * e
    ensures e > 0.0 && lo > 0.0 ==> e * ci > 0.0
  {
    if e > 0.0 {
      MulMono(lo, ci, e);
      MulMono(ci, hi, e);
    }
  }

  /** Raising the duration factor of a non-negative energy product never lowers it. */
  lemma FactorMono(t1: real, t2: real, p: real, u: real, n: real, e1: real, e2: real)
    requires t1 <= t2 && p > 0.0 && u > 0.0 && n >= 0.0
    requires e1 == t1 * p * u * ProviderPue * n && e2 == t2 * p * u * ProviderPue * n
    ensures e1 <= e2
  {
    var k := p * u * ProviderPue * n;
    assert k >= 0.0 by {
      assert p * u * ProviderPue > 0.0;
      MulMono(0.0, p * u * ProviderPue, n);
    }
    MulMono(t1, t2, k);
    assert t1 * p * u * ProviderPue * n == t1 * k;
    assert t2 * p * u * ProviderPue * n == t2 * k;
  }

  /** Raising the utilization factor of a non-negative energy product never lowers it. */
  lemma UtilizationFactorMono(t: real, p: real, u1: real, u2: real, n: real, e1: real, e2: real)
    requires u1 <= u2 && t > 0.0 && p > 0.0 && n >= 0.0
    requires e1 == t * p * u1 * ProviderPue * n && e2 == t * p * u2 * ProviderPue * n
    ensures e1 <= e2
  {
    var k := ProviderPue * n;
    MulMono(u1, u2, t * p);
    assert t * p * u1 <= t * p * u2;
    MulMono(t * p * u1, t * p * u2, k);
    assert t * p * u1 * ProviderPue * n == t * p * u1 * k;
    assert t * p * u2 * ProviderPue * n == t * p * u2 * k;
  }

  // ---------------------------------------------------------------------------
  // Properties of the estimator

  /** Every factor but the node count is positive, so the energy has the sign of `nodes`. */
  lemma EnergySign(inp: CarbonInputs, nodes: real)
    ensures nodes > 0.0 ==> EstimateEnergyKWh(inp, nodes) > 0.0
    ensures nodes == 0.0 ==> EstimateEnergyKWh(inp, nodes) == 0.0
    ensures nodes < 0.0 ==> EstimateEnergyKWh(inp, nodes) < 0.0
  {
    var k := Hours(inp.durationMs) * PowerKw(inp.resourceSku) * EffectiveUtilization(inp.utilization) * ProviderPue;
    PositiveProduct(Hours(inp.durationMs), PowerKw(inp.resourceSku), EffectiveUtilization(inp.utilization), ProviderPue);
    assert EstimateEnergyKWh(inp, nodes) == k * nodes;
  }

  /** Energy is linear in the node count. */
  lemma EnergyLinearInNodes(inp: CarbonInputs, m: real, n: real)
    ensures EstimateEnergyKWh(inp, m + n) == EstimateEnergyKWh(inp, m) + EstimateEnergyKWh(inp, n)
    ensures EstimateEnergyKWh(inp, m * n) == m * EstimateEnergyKWh(inp, n)
  {
    var k := Hours(inp.durationMs) * PowerKw(inp.resourceSku) * EffectiveUtilization(inp.utilization) * ProviderPue;
    ScaleLinear(k, m, n, EstimateEnergyKWh(inp, m), EstimateEnergyKWh(inp, n),
      EstimateEnergyKWh(inp, m + n), EstimateEnergyKWh(inp, m * n));
  }

  /** Multiplying by a fixed factor k is additive and homogeneous. */
  lemma ScaleLinear(k: real, m: real, n: real, em: real, en: real, esum: real, eprod: real)
    requires em == k * m && en == k * n && esum == k * (m + n) && eprod == k * (m * n)
    ensures esum == em + en && eprod == m * en
  {
  }

  /** Any duration of at most one millisecond is charged as exactly one millisecond. */
  lemma EnergyDurationFloor(inp: CarbonInputs, nodes: real)
    requires inp.durationMs <= 1.0
    ensures EstimateEnergyKWh(inp, nodes) == EstimateEnergyKWh(inp.(durationMs := 1.0), nodes)
  {
  }

  /** Utilization outside [0.05, 1] behaves as the nearest bound. */
  lemma EnergyUtilizationClamp(inp: CarbonInputs, nodes: real)
    ensures inp.utilization <= 0.05 ==>
      EstimateEnergyKWh(inp, nodes) == EstimateEnergyKWh(inp.(utilization := 0.05), nodes)
    ensures inp.utilization >= 1.0 ==>
      EstimateEnergyKWh(inp, nodes) == EstimateEnergyKWh(inp.(utilization := 1.0), nodes)
  {
  }

  /** Longer runs never use less energy. */
  lemma EnergyMonotoneInDuration(inp: CarbonInputs, d1: real, d2: real, nodes: real)
    requires d1 <= d2 && nodes >= 0.0
    ensures EstimateEnergyKWh(inp.(durationMs := d1), nodes) <= EstimateEnergyKWh(inp.(durationMs := d2), nodes)
  {
    assert Hours(d1) <= Hours(d2) by {
      assert Max(d1, 1.0) <= Max(d2, 1.0);
    }
    var p, u := PowerKw(inp.resourceSku), EffectiveUtilization(inp.utilization);
    var e1, e2 := Hours(d1) * p * u * ProviderPue * nodes, Hours(d2) * p * u * ProviderPue * nodes;
    FactorMono(Hours(d1), Hours(d2), p, u, nodes, e1, e2);
    assert EstimateEnergyKWh(inp.(durationMs := d1), nodes) == e1;
    assert EstimateEnergyKWh(inp.(durationMs := d2), nodes) == e2;
  }

  /** Higher utilization never uses less energy. */
  lemma EnergyMonotoneInUtilization(inp: CarbonInputs, u1: real, u2: real, nodes: real)
    requires u1 <= u2 && nodes >= 0.0
    ensures EstimateEnergyKWh(inp.(utilization := u1), nodes) <= EstimateEnergyKWh(inp.(utilization := u2), nodes)
  {
    var t, p := Hours(inp.durationMs), PowerKw(inp.resourceSku);
    var v1, v2 := EffectiveUtilization(u1), EffectiveUtilization(u2);
    assert v1 <= v2 by {
      assert Max(u1, MinUtilization) <= Max(u2, MinUtilization);
    }
    var e1, e2 := t * p * v1 * ProviderPue * nodes, t * p * v2 * ProviderPue * nodes;
    UtilizationFactorMono(t, p, v1, v2, nodes, e1, e2);
    assert EstimateEnergyKWh(inp.(utilization := u1), nodes) == e1;
    assert EstimateEnergyKWh(inp.(utilization := u2), nodes) == e2;
  }

  /** The energy is proportional to the SKU's table power: changing only the SKU scales it
      by the ratio of the two powers. */
  lemma EnergyProportionalToPower(inp: CarbonInputs, s1: string, s2: string, nodes: real)
    ensures EstimateEnergyKWh(inp.(resourceSku := s1), nodes) * PowerKw(s2)
      == EstimateEnergyKWh(inp.(resourceSku := s2), nodes) * PowerKw(s1)
  {
    var i1, i2 := inp.(resourceSku := s1), inp.(resourceSku := s2);
    EnergyFactored(i1, nodes);
    EnergyFactored(i2, nodes);
    assert i1.durationMs == i2.durationMs && i1.utilization == i2.utilization;
    CrossRatio(EnergyPerKw(inp.durationMs, inp.utilization, nodes), PowerKw(s1), PowerKw(s2),
      EstimateEnergyKWh(i1, nodes), EstimateEnergyKWh(i2, nodes));
  }

  /** The energy of one kW of node power: everything in the estimate but the SKU's power. */
  function EnergyPerKw(durationMs: real, utilization: real, nodes: real): real {
    Hours(durationMs) * EffectiveUtilization(utilization) * ProviderPue * nodes
  }

  lemma EnergyFactored(inp: CarbonInputs, nodes: real)
    ensures EstimateEnergyKWh(inp, nodes) == EnergyPerKw(inp.durationMs, inp.utilization, nodes) * PowerKw(inp.resourceSku)
  {
    PowerFactor(Hours(inp.durationMs), PowerKw(inp.resourceSku), EffectiveUtilization(inp.utilization),
      nodes, EstimateEnergyKWh(inp, nodes));
  }

  /** An unknown SKU draws what Standard_D8_v5, the 0.20 kW entry, draws. */
  lemma EnergyUnknownSku(inp: CarbonInputs, nodes: real)
    requires inp.resourceSku !in SkuPowerKw
    ensures EstimateEnergyKWh(inp, nodes) == EstimateEnergyKWh(inp.(resourceSku := "Standard_D8_v5"), nodes)
  {
  }

  /** The power factor pulled out of an energy product. */
  lemma PowerFactor(t: real, p: real, u: real, n: real, e: real)
    requires e == t * p * u * ProviderPue * n
    ensures e == (t * u * ProviderPue * n) * p
  {
  }

  /** The region plays no part in the energy. */
  lemma EnergyIgnoresRegion(inp: CarbonInputs, r: string, nodes: real)
    ensures EstimateEnergyKWh(inp.(region := r), nodes) == EstimateEnergyKWh(inp, nodes)
  {
  }

  /** The emissions are proportional to the region's grid intensity: changing only the
      region scales them by the ratio of the two intensities. */
  lemma EmissionsProportionalToIntensity(inp: CarbonInputs, r1: string, r2: string, nodes: real)
    ensures EstimateCO2eKg(inp.(region := r1), nodes) * CarbonIntensity(r2)
      == EstimateCO2eKg(inp.(region := r2), nodes) * CarbonIntensity(r1)
  {
    EmissionsInRegion(inp, r1, nodes);
    EmissionsInRegion(inp, r2, nodes);
    CrossRatio(EstimateEnergyKWh(inp, nodes), CarbonIntensity(r1), CarbonIntensity(r2),
      EstimateCO2eKg(inp.(region := r1), nodes), EstimateCO2eKg(inp.(region := r2), nodes));
  }

  lemma EmissionsInRegion(inp: CarbonInputs, r: string, nodes: real)
    ensures EstimateCO2eKg(inp.(region := r), nodes) == EstimateEnergyKWh(inp, nodes) * CarbonIntensity(r)
  {
    EnergyIgnoresRegion(inp, r, nodes);
  }

  /** An unknown region emits what eastus, the 0.35 kg/kWh entry, emits. */
  lemma EmissionsUnknownRegion(inp: CarbonInputs, nodes: real)
    requires inp.region !in RegionCiKgPerKwh
    ensures EstimateCO2eKg(inp, nodes) == EstimateCO2eKg(inp.(region := "eastus"), nodes)
  {
    EnergyIgnoresRegion(inp, "eastus", nodes);
  }

  /** Two products of a common factor k cross-multiply. */
  lemma CrossRatio(k: real, a: real, b: real, x: real, y: real)
    requires x == k * a && y == k * b
    ensures x * b == y * a
  {
  }

  /** One hour on a Standard_NC6s_v3 node at full load in westeurope: the heaviest SKU and the
      cleanest grid, neither of them equal to its fallback. */
  lemma ExampleNC6WestEurope()
    ensures EstimateEnergyKWh(CarbonInputs("westeurope", "Standard_NC6s_v3", 3600000.0, 1.0)) == 0.72
    ensures EstimateCO2eKg(CarbonInputs("westeurope", "Standard_NC6s_v3", 3600000.0, 1.0)) == 0.144
  {
  }

  /** One hour on a Standard_D8_v5 node at half load in eastus. */
  lemma ExampleD8EastUs()
    ensures EstimateEnergyKWh(CarbonInputs("eastus", "Standard_D8_v5", 3600000.0, 0.5)) == 0.12
    ensures EstimateCO2eKg(CarbonInputs("eastus", "Standard_D8_v5", 3600000.0, 0.5)) == 0.042
  {
  }
}

=== FILE: greenscore.dfy ===
/** The green score: an efficiency, a partitioning and a freshness component, each in
    [0, 100], blended 0.5 / 0.3 / 0.2. */
module GreenScore {
  import opened Values
  import opened Workloads

  /** One tebibyte, 1024^4 bytes (IEC 80000-13). */
  const BytesPerTB: real := 1099511627776.0
  /** The partition average used when the window holds no row. */
  const DefaultPartitionAvg: real := 0.5

  datatype GreenScoreResult = GreenScoreResult(
    co2eKg: real,
    bytesIO: real,
    tbProcessed: real,
    kgPerTB: real,
    efficiency: real,
    partitioning: real,
    freshness: real,
    overall: real)

  /** Emissions per tebibyte processed; zero when no bytes were processed. */
  function KgPerTB(co2eKg: real, bytesIO: real): (k: real)
    ensures bytesIO <= 0.0 ==> k == 0.0
    ensures bytesIO > 0.0 ==> k * (bytesIO / BytesPerTB) == co2eKg
  {
    var tb := bytesIO / BytesPerTB;
    if tb > 0.0 then co2eKg / tb else 0.0
  }

  /** The efficiency component: full marks at or under the target, otherwise the target's
      share of the actual intensity. */
  function EfficiencyScore(kgPerTB: real, target: real): (s: real)
    ensures 0.0 <= s <= 100.0
    ensures kgPerTB <= target || kgPerTB <= 0.0 || target <= 0.0 ==> s == 100.0
    ensures 0.0 < target < kgPerTB ==> 0.0 < s < 100.0 && s * kgPerTB == 100.0 * target
  {
    if kgPerTB <= 0.0 || target <= 0.0 || kgPerTB <= target then 100.0
    else
      RatioBelowOne(target, kgPerTB);
      100.0 * (target / kgPerTB)
  }

  /** Hours since the latest run ended; `None` stands for an infinite age (no run ended). */
  function AgeHours(lastEnded: Option<int>, now: int): (age: Option<real>)
    ensures age.None? <==> lastEnded.None?
    ensures age.Some? ==> age.value * MsPerHour == (now - lastEnded.value) as real
  {
    match lastEnded
    case None => None
    case Some(t) => Some((now - t) as real / MsPerHour)
  }

  /** The freshness component: zero with no finished run, a non-positive age or a
      non-positive target; full marks within the target; otherwise the target's share of
      the age. */
  function FreshnessScore(age: Option<real>, target: real): (s: real)
    ensures 0.0 <= s <= 100.0
    ensures age.None? || age.value <= 0.0 || target <= 0.0 ==> s == 0.0
    ensures age.Some? && 0.0 < age.value <= target ==> s == 100.0
    ensures age.Some? && 0.0 < target < age.value ==> 0.0 < s < 100.0 && s * age.value == 100.0 * target
  {
    if age.None? || age.value <= 0.0 || target <= 0.0 then 0.0
    else if age.value <= target then 100.0
    else
      RatioBelowOne(target, age.value);
      100.0 * (target / age.value)
  }

  /** The partitioning component: the partition average as a percentage, clamped to
      [0, 100], with an empty window counting as 0.5. */
  function PartitioningScore(avg: Option<real>): (s: real)
    ensures 0.0 <= s <= 100.0
    ensures avg.None? ==> s == 50.0
    ensures avg.Some? && 0.0 <= avg.value <= 1.0 ==> s == 100.0 * avg.value
    ensures avg.Some? && avg.value <= 0.0 ==> s == 0.0
    ensures avg.Some? && avg.value >= 1.0 ==> s == 100.0
  {
    Clamp(avg.GetOr(DefaultPartitionAvg) * 100.0, 0.0, 100.0)
  }

  lemma RatioBelowOne(num: real, den: real)
    requires 0.0 < num < den
    ensures 0.0 < 100.0 * (num / den) < 100.0
    ensures 100.0 * (num / den) * den == 100.0 * num
  {
    var q := num / den;
    assert q * den == num;
    if q >= 1.0 {
      MulAtLeast(q, den);
      assert false;
    }
  }

  lemma MulAtLeast(q: real, d: real)
    requires q >= 1.0 && d > 0.0
    ensures q * d >= d
  {
  }

  /** The score endpoint's arithmetic over the three queries' results. Each component is
      computed the way the handler does it: set, then clamped or overwritten. */
  method ComputeGreenScore(rows: seq<WorkloadRow>, from: int, to: int, now: int,
                           targetKgPerTB: real, targetFreshnessHours: real)
    returns (g: GreenScoreResult)
    ensures g.co2eKg == WindowTotals(rows, from, to).co2eKg
    ensures g.bytesIO == WindowTotals(rows, from, to).bytesIO
    ensures g.tbProcessed * BytesPerTB == g.bytesIO
    ensures g.kgPerTB == KgPerTB(g.co2eKg, g.bytesIO)
    ensures g.efficiency == EfficiencyScore(g.kgPerTB, targetKgPerTB)
    ensures g.partitioning == PartitioningScore(PartitionAvg(rows, from, to))
    ensures g.freshness == FreshnessScore(AgeHours(LatestEnded(rows), now), targetFreshnessHours)
    ensures g.overall == 0.5 * g.efficiency + 0.3 * g.partitioning + 0.2 * g.freshness
    ensures 0.0 <= g.overall <= 100.0
  {
    var totals := WindowTotals(rows, from, to);
    var latest := LatestEnded(rows);
    var part := PartitionAvg(rows, from, to);

    var co2e := totals.co2eKg;
    var bytesIO := totals.bytesIO;
    var tb := bytesIO / BytesPerTB;
    var kgPerTB := if tb > 0.0 then co2e / tb else 0.0;

    var effScore := 100.0;
    if kgPerTB > 0.0 && targetKgPerTB > 0.0 {
      effScore := Clamp(100.0 * (targetKgPerTB / kgPerTB), 0.0, 100.0);
      if kgPerTB <= targetKgPerTB {
        effScore := 100.0;
      } else {
        RatioBelowOne(targetKgPerTB, kgPerTB);
      }
    }

    var ageHours := AgeHours(latest, now);
    var freshScore := 0.0;
    if ageHours.Some? && ageHours.value > 0.0 && targetFreshnessHours > 0.0 {
      if ageHours.value <= targetFreshnessHours {
        freshScore := 100.0;
      } else {
        freshScore := Clamp(100.0 * (targetFreshnessHours / ageHours.value), 0.0, 100.0);
        RatioBelowOne(targetFreshnessHours, ageHours.value);
      }
    }

    var partitionedAvg := part.GetOr(DefaultPartitionAvg);
    var partScore := Clamp(partitionedAvg * 100.0, 0.0, 100.0);

    var overall := effScore * 0.5 + partScore * 0.3 + freshScore * 0.2;
    g := GreenScoreResult(co2e, bytesIO, tb, kgPerTB, effScore, partScore, freshScore, overall);
  }

  // ---------------------------------------------------------------------------
  // Properties of the score

  /** A window that processed no bytes gets full efficiency marks, whatever it emitted. */
  lemma NoBytesFullEfficiency(co2eKg: real, target: real)
    ensures EfficiencyScore(KgPerTB(co2eKg, 0.0), target) == 100.0
  {
  }

  /** More emissions per tebibyte never raise the efficiency component. */
  lemma EfficiencyAntitone(k1: real, k2: real, target: real)
    requires k1 <= k2
    ensures EfficiencyScore(k2, target) <= EfficiencyScore(k1, target)
  {
    if 0.0 < target < k1 {
      RatioAntitone(target, k1, k2);
    }
  }

  /** Among runs that ended in the past, an older latest run never scores higher. */
  lemma FreshnessAntitone(a1: real, a2: real, target: real)
    requires 0.0 < a1 <= a2
    ensures FreshnessScore(Some(a2), target) <= FreshnessScore(Some(a1), target)
  {
    if 0.0 < target < a1 {
      RatioAntitone(target, a1, a2);
    }
  }

  lemma RatioAntitone(num: real, d1: real, d2: real)
    requires 0.0 < num && 0.0 < d1 <= d2
    ensures num / d2 <= num / d1
  {
  }

  /** A latest run stamped at or after `now` has a non-positive age and scores zero. */
  lemma FreshnessZeroWhenNotInPast(lastEnded: int, now: int, target: real)
    requires lastEnded >= now
    ensures FreshnessScore(AgeHours(Some(lastEnded), now), target) == 0.0
  {
  }

  /** The overall score of any three components in [0, 100] is itself in [0, 100], and equals
      each component when all three agree. */
  lemma OverallBounds(e: real, p: real, f: real)
    requires 0.0 <= e <= 100.0 && 0.0 <= p <= 100.0 && 0.0 <= f <= 100.0
    ensures 0.0 <= 0.5 * e + 0.3 * p + 0.2 * f <= 100.0
    ensures e == p == f ==> 0.5 * e + 0.3 * p + 0.2 * f == e
  {
  }
}

=== FILE: hotspots.dfy ===
/** The hotspot query: the window's rows grouped by (source, run_id), each group summed,
    ordered by summed emissions descending and cut to the requested number of items. */
module Hotspots {
  import opened Values
  import opened Sql
  import opened Workloads

  datatype GroupKey = GroupKey(source: string, runId: Option<string>)

  /** One row of the query result, before the handler turns it into JSON. */
  datatype Hotspot = Hotspot(
    key: GroupKey,
    computeType: Option<string>,  // MAX(compute_type)
    regionCode: Option<string>,   // MAX(region_code)
    runs: nat,                    // COUNT(*)
    kwh: Option<real>,            // SUM(est_kwh)
    co2eKg: Option<real>,         // SUM(est_co2e_kg)
    bytesIO: Option<real>,        // SUM(COALESCE(bytes_read,0) + COALESCE(bytes_written,0))
    lastRunAt: Option<int>)       // MAX(ended_at)

  /** One element of the response's `items`; `Number(null)` is 0. */
  datatype HotspotItem = HotspotItem(
    source: string,
    runId: Option<string>,
    computeType: Option<string>,
    regionCode: Option<string>,
    runs: real,
    kwh: real,
    co2eKg: real,
    bytesIO: real,
    lastRunAt: Option<int>)

  function KeyOf(r: WorkloadRow): GroupKey {
    GroupKey(r.source, r.runId)
  }

  /** The distinct grouping keys of some rows. */
  function KeysOf(rows: seq<WorkloadRow>): set<GroupKey> {
    set r | r in rows :: KeyOf(r)
  }

  /** The distinct keys of some rows, each once. */
  function GroupKeys(rows: seq<WorkloadRow>): (ks: seq<GroupKey>)
    ensures forall i, j :: 0 <= i < j < |ks| ==> ks[i] != ks[j]
    ensures forall k :: k in ks <==> k in KeysOf(rows)
  {
    if rows == [] then []
    else
      var rest := GroupKeys(rows[1..]);
      var k := KeyOf(rows[0]);
      KeysOfCons(rows);
      if k in rest then rest
      else
        var r := [k] + rest;
        assert forall i :: 1 <= i < |r| ==> r[i] == rest[i - 1];
        r
  }

  /** There are as many distinct keys as the list of keys is long. */
  lemma {:induction false} GroupKeysCount(rows: seq<WorkloadRow>)
    ensures |GroupKeys(rows)| == |KeysOf(rows)|
  {
    if rows != [] {
      GroupKeysCount(rows[1..]);
      KeysOfCons(rows);
      var k := KeyOf(rows[0]);
      var rest := KeysOf(rows[1..]);
      if k in rest {
        assert {k} + rest == rest;
      } else {
        assert |{k} + rest| == |rest| + 1;
      }
    }
  }

  lemma KeysOfCons(rows: seq<WorkloadRow>)
    requires rows != []
    ensures KeysOf(rows) == {KeyOf(rows[0])} + KeysOf(rows[1..])
  {
    assert forall r :: r in rows <==> r == rows[0] || r in rows[1..];
  }

  /** The rows of one group, in order. */
  function GroupRows(rows: seq<WorkloadRow>, k: GroupKey): (g: seq<WorkloadRow>)
    ensures forall r :: r in g <==> r in rows && KeyOf(r) == k
    ensures k in KeysOf(rows) ==> g != []
  {
    if rows == [] then []
    else if KeyOf(rows[0]) == k then [rows[0]] + GroupRows(rows[1..], k)
    else GroupRows(rows[1..], k)
  }

  /** A group keeps every copy of its rows, so `COUNT(*)` and `SUM` see each copy. */
  lemma {:induction false} GroupKeepsCopies(rows: seq<WorkloadRow>, k: GroupKey, r: WorkloadRow)
    ensures multiset(GroupRows(rows, k))[r] == if KeyOf(r) == k then multiset(rows)[r] else 0
  {
    if rows != [] {
      GroupKeepsCopies(rows[1..], k, r);
      assert rows == [rows[0]] + rows[1..];
    }
  }

  /** Folds one row of a group into the aggregate of the group's later rows. */
  function AddRow(r: WorkloadRow, h: Hotspot): (h': Hotspot)
    ensures h'.key == h.key && h'.runs == h.runs + 1
    ensures h'.co2eKg.None? <==> r.estCo2eKg.None? && h.co2eKg.None?
    ensures h'.kwh.None? <==> r.estKwh.None? && h.kwh.None?
    ensures h'.bytesIO.Some?
    ensures h'.lastRunAt.None? <==> r.endedAt.None? && h.lastRunAt.None?
  {
    h.(computeType := MaxTextStep(r.computeType, h.computeType),
      regionCode := MaxTextStep(r.regionCode, h.regionCode),
      runs := h.runs + 1,
      kwh := SumStep(r.estKwh, h.kwh),
      co2eKg := SumStep(r.estCo2eKg, h.co2eKg),
      bytesIO := SumStep(Some(BytesIO(r)), h.bytesIO),
      lastRunAt := MaxTimeStep(r.endedAt, h.lastRunAt))
  }

  /** The aggregate row of one group, folding its rows in. */
  function Aggregate(rows: seq<WorkloadRow>, k: GroupKey): (h: Hotspot)
    ensures h.key == k
  {
    if rows == [] then Hotspot(k, None, None, 0, None, None, None, None)
    else if KeyOf(rows[0]) == k then AddRow(rows[0], Aggregate(rows[1..], k))
    else Aggregate(rows[1..], k)
  }

  /** The fold computes the select list of the query over the group's rows. */
  lemma {:induction false} AggregateIsSelectList(rows: seq<WorkloadRow>, k: GroupKey)
    ensures var h := Aggregate(rows, k);
      var g := GroupRows(rows, k);
      && h.computeType == MaxText(ComputeTypeColumn(g))
      && h.regionCode == MaxText(RegionColumn(g))
      && h.runs == |g|
      && h.kwh == Sum(KwhColumn(g))
      && h.co2eKg == Sum(Co2eColumn(g))
      && h.bytesIO == Sum(BytesIOColumn(g))
      && h.lastRunAt == LatestEnded(g)
  {
    if rows != [] {
      AggregateIsSelectList(rows[1..], k);
      if KeyOf(rows[0]) == k {
        var r := rows[0];
        var g := GroupRows(rows[1..], k);
        assert GroupRows(rows, k) == [r] + g;
        ColumnsCons(r, g);
        MaxTextCons(r.computeType, ComputeTypeColumn(g));
        MaxTextCons(r.regionCode, RegionColumn(g));
        SumCons(r.estKwh, KwhColumn(g));
        SumCons(r.estCo2eKg, Co2eColumn(g));
        SumCons(Some(BytesIO(r)), BytesIOColumn(g));
        MaxTimeCons(r.endedAt, EndedColumn(g));
      }
    }
  }

  /** What the aggregate row of a group says about the group's rows: how many there are,
      their summed emissions (NULL only when every one is NULL), a byte sum that is never
      NULL for a group that occurs, and their latest end. */
  lemma AggregateMeaning(rows: seq<WorkloadRow>, k: GroupKey)
    ensures var h := Aggregate(rows, k);
      && h.runs == |GroupRows(rows, k)|
      && (k in KeysOf(rows) ==> h.runs >= 1 && h.bytesIO.Some?)
      && (h.co2eKg.None? <==> forall r :: r in GroupRows(rows, k) ==> r.estCo2eKg.None?)
      && h.co2eKg.GetOr(0.0) == ZeroSum(Co2eColumn(GroupRows(rows, k)))
      && h.lastRunAt == LatestEnded(GroupRows(rows, k))
  {
    AggregateIsSelectList(rows, k);
    GroupColumns(GroupRows(rows, k));
  }

  /** The byte sum of a non-empty group is never NULL; its emissions sum is NULL exactly
      when every row's emissions are. */
  lemma GroupColumns(g: seq<WorkloadRow>)
    ensures g != [] ==> Sum(BytesIOColumn(g)).Some?
    ensures Sum(Co2eColumn(g)).None? <==> forall r :: r in g ==> r.estCo2eKg.None?
  {
    var bytes := BytesIOColumn(g);
    assert g != [] ==> bytes[0].Some?;
    var co2e := Co2eColumn(g);
    assert forall i :: 0 <= i < |g| ==> co2e[i] == g[i].estCo2eKg;
    assert (forall r :: r in g ==> r.estCo2eKg.None?) <==> (forall i :: 0 <= i < |co2e| ==> co2e[i].None?) by {
      forall i | 0 <= i < |g| ensures g[i] in g {
      }
    }
  }

  /** The aggregate rows of the given keys, in the keys' order. */
  function AggregateAll(w: seq<WorkloadRow>, ks: seq<GroupKey>): (gs: seq<Hotspot>)
    ensures |gs| == |ks|
    ensures forall i :: 0 <= i < |ks| ==> gs[i] == Aggregate(w, ks[i])
  {
    if ks == [] then [] else [Aggregate(w, ks[0])] + AggregateAll(w, ks[1..])
  }

  /** One aggregate row per distinct key of the window's rows. */
  function Groups(w: seq<WorkloadRow>): (gs: seq<Hotspot>)
    ensures |gs| == |KeysOf(w)|
    ensures forall i :: 0 <= i < |gs| ==> gs[i] == Aggregate(w, gs[i].key) && gs[i].key in KeysOf(w)
    ensures forall k :: k in KeysOf(w) ==> Aggregate(w, k) in gs
    ensures UniqueKeys(gs)
  {
    var ks := GroupKeys(w);
    GroupKeysCount(w);
    var gs := AggregateAll(w, ks);
    forall i | 0 <= i < |gs| ensures gs[i] == Aggregate(w, gs[i].key) && gs[i].key in KeysOf(w) {
      assert ks[i] in ks;
    }
    forall k | k in KeysOf(w) ensures Aggregate(w, k) in gs {
      var i :| 0 <= i < |ks| && ks[i] == k;
      assert gs[i] == Aggregate(w, k);
    }
    gs
  }

  predicate UniqueKeys(hs: seq<Hotspot>) {
    forall i, j :: 0 <= i < j < |hs| ==> hs[i].key != hs[j].key
  }

  /** Whether a group summing to `a` may be listed before one summing to `b` under
      `ORDER BY co2e_kg DESC`, where NULL sorts first. */
  predicate RanksFirst(a: Option<real>, b: Option<real>) {
    a.None? || (b.Some? && a.value >= b.value)
  }

  predicate SortedByCo2eDesc(hs: seq<Hotspot>) {
    forall i, j :: 0 <= i < j < |hs| ==> RanksFirst(hs[i].co2eKg, hs[j].co2eKg)
  }

  /** Inserts one aggregate row into a sorted list, before the first row it ranks ahead of
      (so it goes before rows of equal emissions, and equal rows keep their input order). */
  function Insert(h: Hotspot, hs: seq<Hotspot>): (r: seq<Hotspot>)
    requires SortedByCo2eDesc(hs)
    ensures |r| == |hs| + 1
    ensures multiset(r) == multiset(hs) + multiset{h}
    ensures SortedByCo2eDesc(r)
  {
    if hs == [] then [h]
    else if RanksFirst(h.co2eKg, hs[0].co2eKg) then
      InsertFront(h, hs);
      [h] + hs
    else
      var rest := Insert(h, hs[1..]);
      assert hs == [hs[0]] + hs[1..];
      InsertBehind(h, hs, rest);
      [hs[0]] + rest
  }

  lemma InsertFront(h: Hotspot, hs: seq<Hotspot>)
    requires SortedByCo2eDesc(hs) && hs != [] && RanksFirst(h.co2eKg, hs[0].co2eKg)
    ensures SortedByCo2eDesc([h] + hs)
  {
    var r := [h] + hs;
    forall i, j | 0 <= i < j < |r| ensures RanksFirst(r[i].co2eKg, r[j].co2eKg) {
      if i == 0 && j > 1 {
        assert RanksFirst(hs[0].co2eKg, hs[j - 1].co2eKg);
      }
    }
  }

  lemma InsertBehind(h: Hotspot, hs: seq<Hotspot>, rest: seq<Hotspot>)
    requires SortedByCo2eDesc(hs) && hs != [] && !RanksFirst(h.co2eKg, hs[0].co2eKg)
    requires SortedByCo2eDesc(rest) && multiset(rest) == multiset(hs[1..]) + multiset{h}
    ensures SortedByCo2eDesc([hs[0]] + rest)
  {
    forall j | 0 <= j < |rest| ensures RanksFirst(hs[0].co2eKg, rest[j].co2eKg) {
      var x := rest[j];
      assert x in multiset(rest);
      if x != h {
        assert x in multiset(hs[1..]);
        var m :| 0 <= m < |hs[1..]| && hs[1..][m] == x;
        assert hs[m + 1] == x;
      }
    }
    var r := [hs[0]] + rest;
    forall i, j | 0 <= i < j < |r| ensures RanksFirst(r[i].co2eKg, r[j].co2eKg) {
      if i == 0 {
        assert r[j] == rest[j - 1];
      } else {
        assert r[i] == rest[i - 1] && r[j] == rest[j - 1];
      }
    }
  }

  /** `ORDER BY co2e_kg DESC` over the aggregate rows. */
  function SortByCo2eDesc(hs: seq<Hotspot>): (r: seq<Hotspot>)
    ensures |r| == |hs|
    ensures multiset(r) == multiset(hs)
    ensures SortedByCo2eDesc(r)
  {
    if hs == [] then []
    else
      assert hs == [hs[0]] + hs[1..];
      assert multiset(hs) == multiset{hs[0]} + multiset(hs[1..]);
      Insert(hs[0], SortByCo2eDesc(hs[1..]))
  }

  lemma {:induction false} InsertKeepsKeysUnique(h: Hotspot, hs: seq<Hotspot>)
    requires SortedByCo2eDesc(hs) && UniqueKeys(hs)
    requires forall x :: x in hs ==> x.key != h.key
    ensures UniqueKeys(Insert(h, hs))
  {
    if hs == [] {
    } else if RanksFirst(h.co2eKg, hs[0].co2eKg) {
      ConsKeepsKeysUnique(h, hs);
    } else {
      TailKeys(hs);
      assert forall x :: x in hs[1..] ==> x in hs;
      InsertKeepsKeysUnique(h, hs[1..]);
      var rest := Insert(h, hs[1..]);
      MembersAvoidKey(rest, hs[1..], h, hs[0].key);
      ConsKeepsKeysUnique(hs[0], rest);
    }
  }

  /** The tail of a list with distinct keys has distinct keys, none of them the head's. */
  lemma TailKeys(hs: seq<Hotspot>)
    requires UniqueKeys(hs) && hs != []
    ensures UniqueKeys(hs[1..])
    ensures forall x :: x in hs[1..] ==> x.key != hs[0].key
  {
    var tail := hs[1..];
    forall i, j | 0 <= i < j < |tail| ensures tail[i].key != tail[j].key {
      assert tail[i] == hs[i + 1] && tail[j] == hs[j + 1];
    }
    forall x | x in tail ensures x.key != hs[0].key {
      var m :| 0 <= m < |tail| && tail[m] == x;
      assert hs[m + 1] == x;
    }
  }

  /** Putting a row with a new key in front keeps the keys distinct. */
  lemma ConsKeepsKeysUnique(x: Hotspot, rest: seq<Hotspot>)
    requires UniqueKeys(rest)
    requires forall y :: y in rest ==> y.key != x.key
    ensures UniqueKeys([x] + rest)
  {
    var r := [x] + rest;
    forall i, j | 0 <= i < j < |r| ensures r[i].key != r[j].key {
      assert r[j] == rest[j - 1];
      if i == 0 {
        assert rest[j - 1] in rest;
      } else {
        assert r[i] == rest[i - 1];
      }
    }
  }

  /** Every row of a list holding the rows of `hs` and `h` avoids a key they all avoid. */
  lemma MembersAvoidKey(rest: seq<Hotspot>, hs: seq<Hotspot>, h: Hotspot, k: GroupKey)
    requires multiset(rest) == multiset(hs) + multiset{h}
    requires h.key != k && forall x :: x in hs ==> x.key != k
    ensures forall x :: x in rest ==> x.key != k
  {
    forall x | x in rest ensures x.key != k {
      assert x in multiset(rest);
      if x != h {
        assert x in multiset(hs);
      }
    }
  }

  /** Sorting never makes two rows share a key. */
  lemma {:induction false} SortKeepsKeysUnique(hs: seq<Hotspot>)
    requires UniqueKeys(hs)
    ensures UniqueKeys(SortByCo2eDesc(hs))
  {
    if hs != [] {
      var tail := hs[1..];
      assert UniqueKeys(tail) by {
        forall i, j | 0 <= i < j < |tail| ensures tail[i].key != tail[j].key {
          assert tail[i] == hs[i + 1] && tail[j] == hs[j + 1];
        }
      }
      SortKeepsKeysUnique(tail);
      var sortedTail := SortByCo2eDesc(tail);
      forall x | x in sortedTail ensures x.key != hs[0].key {
        assert x in multiset(sortedTail);
        assert x in tail;
        var m :| 0 <= m < |tail| && tail[m] == x;
        assert hs[m + 1] == x;
      }
      InsertKeepsKeysUnique(hs[0], sortedTail);
    }
  }

  /** Every group of the window, ordered by summed emissions descending. */
  function RankedGroups(w: seq<WorkloadRow>): (r: seq<Hotspot>)
    ensures |r| == |KeysOf(w)|
    ensures SortedByCo2eDesc(r)
    ensures UniqueKeys(r)
    ensures forall i :: 0 <= i < |r| ==> r[i].key in KeysOf(w) && r[i] == Aggregate(w, r[i].key)
    ensures forall k :: k in KeysOf(w) ==> Aggregate(w, k) in r
  {
    var gs := Groups(w);
    var sorted := SortByCo2eDesc(gs);
    SortKeepsKeysUnique(gs);
    forall i | 0 <= i < |sorted| ensures sorted[i].key in KeysOf(w) && sorted[i] == Aggregate(w, sorted[i].key) {
      assert sorted[i] in multiset(sorted);
      assert sorted[i] in gs;
    }
    forall k | k in KeysOf(w) ensures Aggregate(w, k) in sorted {
      assert Aggregate(w, k) in multiset(gs);
      assert Aggregate(w, k) in multiset(sorted);
    }
    sorted
  }

  /** One more than the largest `bigint`, the type the `LIMIT` parameter takes. */
  const BigintBound: real := 9223372036854775808.0

  /** A limit `LIMIT` accepts: a whole number in the range of `bigint`. A fraction, a
      negative number or a number of 2^63 and beyond makes the query fail. */
  predicate ValidLimit(limit: real) {
    IsInt(limit) && 0.0 <= limit < BigintBound
  }

  /** The hotspot query. */
  function HotspotRows(rows: seq<WorkloadRow>, from: int, to: int, limit: real): (res: Result<seq<Hotspot>, string>)
    ensures res.Success? <==> IsInt(limit) && 0.0 <= limit < 9223372036854775808.0
    ensures res.Success? ==> |res.value| == (if limit.Floor <= |KeysOf(Window(rows, from, to))| then limit.Floor
      else |KeysOf(Window(rows, from, to))|)
    ensures res.Success? ==> res.value <= RankedGroups(Window(rows, from, to))
  {
    if !ValidLimit(limit) then Failure("invalid LIMIT")
    else
      var ranked := RankedGroups(Window(rows, from, to));
      Success(ranked[..if limit.Floor <= |ranked| then limit.Floor else |ranked|])
  }

  /** The JSON item of one result row: the group's key and figures, with `Number(null)`
      turning a NULL sum into 0. */
  function ToItem(h: Hotspot): (it: HotspotItem)
    ensures GroupKey(it.source, it.runId) == h.key
    ensures it.computeType == h.computeType && it.regionCode == h.regionCode && it.lastRunAt == h.lastRunAt
    ensures it.runs == h.runs as real
    ensures h.co2eKg.None? ==> it.co2eKg == 0.0
    ensures h.co2eKg.Some? ==> it.co2eKg == h.co2eKg.value
    ensures it.kwh == h.kwh.GetOr(0.0) && it.bytesIO == h.bytesIO.GetOr(0.0)
  {
    HotspotItem(h.key.source, h.key.runId, h.computeType, h.regionCode, h.runs as real,
      h.kwh.GetOr(0.0), h.co2eKg.GetOr(0.0), h.bytesIO.GetOr(0.0), h.lastRunAt)
  }

  /** The `/metrics/hotspots` response items, one per result row, in the rows' order. */
  function HotspotItems(rows: seq<WorkloadRow>, from: int, to: int, limit: real): (res: Result<seq<HotspotItem>, string>)
    ensures res.Success? <==> HotspotRows(rows, from, to, limit).Success?
    ensures res.Success? ==> |res.value| == |HotspotRows(rows, from, to, limit).value|
    ensures res.Success? ==> forall i :: 0 <= i < |res.value| ==>
      res.value[i] == ToItem(HotspotRows(rows, from, to, limit).value[i])
  {
    match HotspotRows(rows, from, to, limit)
    case Failure(e) => Failure(e)
    case Success(hs) => Success(seq(|hs|, i requires 0 <= i < |hs| => ToItem(hs[i])))
  }

  /** A group none of whose runs has an emissions estimate. */
  predicate NoEmissions(g: seq<WorkloadRow>) {
    forall r :: r in g ==> r.estCo2eKg.None?
  }

  // ---------------------------------------------------------------------------
  // Properties of the hotspot query

  /** The rows the query returns: at most `limit` of them, one per distinct (source, run_id)
      of the window, each the aggregate of its group, ordered by summed emissions. */
  lemma HotspotsShape(rows: seq<WorkloadRow>, from: int, to: int, limit: real)
    requires ValidLimit(limit)
    ensures var w := Window(rows, from, to);
      var hs := HotspotRows(rows, from, to, limit).value;
      && |hs| == (if limit.Floor <= |KeysOf(w)| then limit.Floor else |KeysOf(w)|)
      && SortedByCo2eDesc(hs)
      && UniqueKeys(hs)
      && (forall i :: 0 <= i < |hs| ==> hs[i].key in KeysOf(w) && hs[i] == Aggregate(w, hs[i].key))
  {
    var w := Window(rows, from, to);
    var ranked := RankedGroups(w);
    var hs := HotspotRows(rows, from, to, limit).value;
    PrefixShape(ranked, hs);
    forall i | 0 <= i < |hs| ensures hs[i].key in KeysOf(w) && hs[i] == Aggregate(w, hs[i].key) {
      assert hs[i] == ranked[i];
    }
  }

  /** A prefix of a sorted list of distinct keys is one too. */
  lemma PrefixShape(ranked: seq<Hotspot>, hs: seq<Hotspot>)
    requires hs <= ranked
    ensures SortedByCo2eDesc(ranked) ==> SortedByCo2eDesc(hs)
    ensures UniqueKeys(ranked) ==> UniqueKeys(hs)
    ensures forall i :: 0 <= i < |hs| ==> hs[i] == ranked[i]
  {
  }

  /** A group left out by the limit sums to no more than any group listed (NULL sums first). */
  lemma HotspotsTopN(rows: seq<WorkloadRow>, from: int, to: int, limit: real, k: GroupKey)
    requires ValidLimit(limit)
    requires k in KeysOf(Window(rows, from, to))
    requires forall i :: 0 <= i < |HotspotRows(rows, from, to, limit).value| ==>
      HotspotRows(rows, from, to, limit).value[i].key != k
    ensures forall i :: 0 <= i < |HotspotRows(rows, from, to, limit).value| ==>
      RanksFirst(HotspotRows(rows, from, to, limit).value[i].co2eKg, Aggregate(Window(rows, from, to), k).co2eKg)
  {
    var w := Window(rows, from, to);
    var hs := HotspotRows(rows, from, to, limit).value;
    PrefixRanksFirst(RankedGroups(w), hs, Aggregate(w, k));
  }

  /** In a sorted list, an element whose key a prefix does not hold ranks after every
      element of that prefix. */
  lemma PrefixRanksFirst(ranked: seq<Hotspot>, hs: seq<Hotspot>, a: Hotspot)
    requires SortedByCo2eDesc(ranked) && hs <= ranked && a in ranked
    requires forall i :: 0 <= i < |hs| ==> hs[i].key != a.key
    ensures forall i :: 0 <= i < |hs| ==> RanksFirst(hs[i].co2eKg, a.co2eKg)
  {
    var j :| 0 <= j < |ranked| && ranked[j] == a;
    forall i | 0 <= i < |hs| ensures ranked[i] != a {
      assert hs[i] == ranked[i];
    }
    assert |hs| <= j;
    forall i | 0 <= i < |hs| ensures RanksFirst(hs[i].co2eKg, a.co2eKg) {
      assert hs[i] == ranked[i];
    }
  }

  /** When the limit is no smaller than the number of groups, every group is listed. */
  lemma HotspotsComplete(rows: seq<WorkloadRow>, from: int, to: int, limit: real, k: GroupKey)
    requires ValidLimit(limit)
    requires |KeysOf(Window(rows, from, to))| <= limit.Floor
    requires k in KeysOf(Window(rows, from, to))
    ensures Aggregate(Window(rows, from, to), k) in HotspotRows(rows, from, to, limit).value
  {
    var w := Window(rows, from, to);
    var hs := HotspotRows(rows, from, to, limit).value;
    PrefixComplete(RankedGroups(w), hs, Aggregate(w, k));
  }

  /** A prefix as long as the whole list is the list. */
  lemma PrefixComplete(ranked: seq<Hotspot>, hs: seq<Hotspot>, a: Hotspot)
    requires hs <= ranked && |ranked| <= |hs| && a in ranked
    ensures a in hs
  {
    assert hs == ranked;
  }

  /** Each item describes its own group of the window: a key that occurs there, the
      group's number of runs (at least one), its emissions, energy and bytes summed with
      NULL read as 0, and its latest end. */
  lemma HotspotItemsMeaning(rows: seq<WorkloadRow>, from: int, to: int, limit: real)
    requires ValidLimit(limit)
    ensures var w := Window(rows, from, to);
      var items := HotspotItems(rows, from, to, limit).value;
      forall i :: 0 <= i < |items| ==>
        var g := GroupRows(w, GroupKey(items[i].source, items[i].runId));
        && GroupKey(items[i].source, items[i].runId) in KeysOf(w)
        && items[i].runs == |g| as real && 1.0 <= items[i].runs
        && items[i].co2eKg == ZeroSum(Co2eColumn(g))
        && items[i].kwh == ZeroSum(KwhColumn(g))
        && items[i].bytesIO == ZeroSum(BytesIOColumn(g))
        && items[i].lastRunAt == LatestEnded(g)
  {
    var w := Window(rows, from, to);
    var hs := HotspotRows(rows, from, to, limit).value;
    var items := HotspotItems(rows, from, to, limit).value;
    HotspotsShape(rows, from, to, limit);
    forall i | 0 <= i < |items|
      ensures var g := GroupRows(w, GroupKey(items[i].source, items[i].runId));
        && GroupKey(items[i].source, items[i].runId) in KeysOf(w)
        && items[i].runs == |g| as real && 1.0 <= items[i].runs
        && items[i].co2eKg == ZeroSum(Co2eColumn(g))
        && items[i].kwh == ZeroSum(KwhColumn(g))
        && items[i].bytesIO == ZeroSum(BytesIOColumn(g))
        && items[i].lastRunAt == LatestEnded(g)
    {
      var k := hs[i].key;
      assert items[i] == ToItem(hs[i]);
      AggregateIsSelectList(w, k);
      AggregateMeaning(w, k);
    }
  }

  /** The items' order, as `ORDER BY co2e_kg DESC` leaves it: groups without any emissions
      estimate come first and show 0, and the others follow by non-increasing emissions. So
      an item showing 0 kg may be listed before one showing more. */
  lemma HotspotItemsOrder(rows: seq<WorkloadRow>, from: int, to: int, limit: real)
    requires ValidLimit(limit)
    ensures var w := Window(rows, from, to);
      var items := HotspotItems(rows, from, to, limit).value;
      && (forall i :: 0 <= i < |items| && NoEmissions(GroupRows(w, GroupKey(items[i].source, items[i].runId))) ==>
        items[i].co2eKg == 0.0)
      && (forall i, j :: 0 <= i < j < |items| ==>
        var gi := GroupRows(w, GroupKey(items[i].source, items[i].runId));
        var gj := GroupRows(w, GroupKey(items[j].source, items[j].runId));
        && (NoEmissions(gj) ==> NoEmissions(gi))
        && (!NoEmissions(gi) ==> items[i].co2eKg >= items[j].co2eKg))
  {
    var w := Window(rows, from, to);
    var hs := HotspotRows(rows, from, to, limit).value;
    var items := HotspotItems(rows, from, to, limit).value;
    HotspotsShape(rows, from, to, limit);
    forall i | 0 <= i < |items|
      ensures items[i] == ToItem(hs[i])
      ensures hs[i].co2eKg.None? <==> NoEmissions(GroupRows(w, GroupKey(items[i].source, items[i].runId)))
    {
      AggregateMeaning(w, hs[i].key);
    }
    forall i, j | 0 <= i < j < |items|
      ensures var gi := GroupRows(w, GroupKey(items[i].source, items[i].runId));
        var gj := GroupRows(w, GroupKey(items[j].source, items[j].runId));
        && (NoEmissions(gj) ==> NoEmissions(gi))
        && (!NoEmissions(gi) ==> items[i].co2eKg >= items[j].co2eKg)
    {
      assert RanksFirst(hs[i].co2eKg, hs[j].co2eKg);
    }
  }
}

=== FILE: ingest.dfy ===
/** The two ingest routes: the shared token gate, the required-key check of
    `/ingest/usage`, and the mapping of a parsed workload event to a usage payload in
    `/ingest/events`. Computing and storing the estimate is not part of this model. */
module Ingest {
  import opened Values
  import opened Schema

  /** The normalised usage record handed to the carbon engine. Timestamps are milliseconds. */
  datatype UsageIngestPayload = UsageIngestPayload(
    source: string,
    runId: Option<string>,
    cloud: string,
    regionCode: string,
    computeType: Option<string>,
    nodeCount: Option<real>,
    avgCpuUtilization: Option<real>,  // 0..100
    avgGpuUtilization: Option<real>,  // 0..100
    gpuType: Option<string>,
    startedAt: int,
    endedAt: int,
    dbu: Option<real>,
    bytesRead: Option<real>,
    bytesWritten: Option<real>,
    rowsProcessed: Option<real>,
    estKWh: Option<real>)

  const DefaultRegion: string := "eastus"
  const DefaultCloud: string := "azure"

  // ---------------------------------------------------------------------------
  // Lower-casing (ASCII letters only)

  predicate IsUpper(c: char) {
    'A' <= c <= 'Z'
  }

  function LowerChar(c: char): char {
    if IsUpper(c) then (c as int + 32) as char else c
  }

  /** `toLowerCase`, restricted to the ASCII letters. */
  function LowerAscii(s: string): (r: string)
    ensures |r| == |s|
    ensures forall i :: 0 <= i < |r| ==> !IsUpper(r[i])
    ensures forall i :: 0 <= i < |s| && !IsUpper(s[i]) ==> r[i] == s[i]
    ensures forall i :: 0 <= i < |s| && IsUpper(s[i]) ==> r[i] as int == s[i] as int + 32
  {
    if s == [] then [] else [LowerChar(s[0])] + LowerAscii(s[1..])
  }

  /** Lower-casing twice is lower-casing once. */
  lemma {:induction false} LowerAsciiIdempotent(s: string)
    ensures LowerAscii(LowerAscii(s)) == LowerAscii(s)
  {
    var r := LowerAscii(s);
    var rr := LowerAscii(r);
    assert |rr| == |r|;
    forall i | 0 <= i < |r| ensures rr[i] == r[i] {
      assert !IsUpper(r[i]);
    }
  }

  // ---------------------------------------------------------------------------
  // Mapping an event to a usage payload

  /** A fraction in [0, 1] as a percentage. */
  function Percent(x: real): (p: real)
    ensures 0.0 <= x <= 1.0 ==> 0.0 <= p <= 100.0
    ensures p == 0.0 <==> x == 0.0
  {
    x * 100.0
  }

  /** The cloud: the `cloud` label lower-cased, else "azure". A label that is a number or
      a boolean has no `toLowerCase`, so the handler throws. */
  function CloudOf(labels: Option<map<string, Label>>): (r: Result<string, string>)
    ensures r.Failure? <==> labels.Some? && "cloud" in labels.value && !labels.value["cloud"].LStr?
    ensures labels.None? || "cloud" !in labels.value ==> r == Success(DefaultCloud)
    ensures r.Success? ==> forall i :: 0 <= i < |r.value| ==> !IsUpper(r.value[i])
    ensures r.Success? && labels.Some? && "cloud" in labels.value ==>
      var s := labels.value["cloud"].s;
      && |r.value| == |s|
      && (forall i :: 0 <= i < |s| && IsUpper(s[i]) ==> r.value[i] as int == s[i] as int + 32)
      && (forall i :: 0 <= i < |s| && !IsUpper(s[i]) ==> r.value[i] == s[i])
  {
    if labels.None? || "cloud" !in labels.value then Success(DefaultCloud)
    else
      match labels.value["cloud"]
      case LStr(s) => Success(LowerAscii(s))
      case _ => Failure("TypeError: toLowerCase is not a function")
  }

  /** `eventToPayload`: fails only where the handler throws on a non-string `cloud` label. */
  function EventToPayload(ev: WorkloadEvent): (r: Result<UsageIngestPayload, string>)
    ensures r.Success? <==> CloudOf(ev.labels).Success?
    ensures r.Success? ==> r.value.cloud == CloudOf(ev.labels).value
  {
    match CloudOf(ev.labels)
    case Failure(e) => Failure(e)
    case Success(cloud) =>
      var m := ev.metrics;
      Success(UsageIngestPayload(
        source := if ev.workload.kind == Spark then "spark" else KindName(ev.workload.kind),
        runId := Some(ev.workload.externalId),
        cloud := cloud,
        regionCode := ev.workload.region.GetOr(DefaultRegion),
        computeType := ev.workload.resourceSku,
        nodeCount := Some(m.nodes),
        avgCpuUtilization := Some(Percent(m.cpuUtilAvg)),
        avgGpuUtilization := if m.gpuUtilAvg.Present? then Some(Percent(m.gpuUtilAvg.value)) else None,
        gpuType := OptionOf(m.gpuType),
        startedAt := ev.timestamps.startedAt.GetOr(ev.timestamps.endedAt),
        endedAt := ev.timestamps.endedAt,
        dbu := None,
        bytesRead := m.bytesRead,
        bytesWritten := m.bytesWritten,
        rowsProcessed := None,
        estKWh := None))
  }

  /** The payload of a well-formed event carries utilizations as percentages in [0, 100],
      a positive whole node count and non-negative whole byte counts. */
  lemma PayloadRanges(ev: WorkloadEvent)
    requires WellFormed(ev) && EventToPayload(ev).Success?
    ensures var p := EventToPayload(ev).value;
      && p.avgCpuUtilization.Some? && 0.0 <= p.avgCpuUtilization.value <= 100.0
      && (p.avgGpuUtilization.Some? ==> 0.0 <= p.avgGpuUtilization.value <= 100.0)
      && p.nodeCount.Some? && PosInt(p.nodeCount.value)
      && (p.bytesRead.Some? ==> NonNegInt(p.bytesRead.value))
      && (p.bytesWritten.Some? ==> NonNegInt(p.bytesWritten.value))
  {
    var m := ev.metrics;
    assert InUnit(m.cpuUtilAvg);
  }

  /** The payload names the workload: its source is the event kind, its run id the
      external id; the kind can be read back from the source. */
  lemma PayloadIdentity(ev: WorkloadEvent)
    requires EventToPayload(ev).Success?
    ensures var p := EventToPayload(ev).value;
      && p.source == KindName(ev.workload.kind)
      && KindOf(p.source) == Some(ev.workload.kind)
      && p.runId == Some(ev.workload.externalId)
      && p.endedAt == ev.timestamps.endedAt
  {
  }

  /** The members the mapping carries over: the SKU, the node count, the byte counts and
      a given GPU type unchanged, the utilizations scaled from fractions to percentages;
      DBUs, rows processed and a collector energy figure stay unset. */
  lemma PayloadCarried(ev: WorkloadEvent)
    requires EventToPayload(ev).Success?
    ensures var p := EventToPayload(ev).value;
      && p.computeType == ev.workload.resourceSku
      && p.nodeCount == Some(ev.metrics.nodes)
      && p.bytesRead == ev.metrics.bytesRead
      && p.bytesWritten == ev.metrics.bytesWritten
      && (ev.metrics.gpuType.Present? ==> p.gpuType == Some(ev.metrics.gpuType.value))
      && p.avgCpuUtilization == Some(ev.metrics.cpuUtilAvg * 100.0)
      && (ev.metrics.gpuUtilAvg.Present? ==> p.avgGpuUtilization == Some(ev.metrics.gpuUtilAvg.value * 100.0))
      && p.dbu.None? && p.rowsProcessed.None? && p.estKWh.None?
  {
  }

  /** What an omitted member becomes: no start time starts the run when it ended, no region
      is "eastus", no cloud label is "azure", and no GPU utilization stays unset. */
  lemma PayloadFallbacks(ev: WorkloadEvent)
    requires EventToPayload(ev).Success?
    ensures var p := EventToPayload(ev).value;
      && (ev.timestamps.startedAt.None? ==> p.startedAt == p.endedAt)
      && (ev.timestamps.startedAt.Some? ==> p.startedAt == ev.timestamps.startedAt.value)
      && (ev.workload.region.None? ==> p.regionCode == "eastus")
      && (ev.workload.region.Some? ==> p.regionCode == ev.workload.region.value)
      && (ev.labels.None? ==> p.cloud == "azure")
      && (!ev.metrics.gpuUtilAvg.Present? ==> p.avgGpuUtilization.None?)
      && (ev.metrics.gpuType.Present? <==> p.gpuType.Some?)
  {
  }

  /** An event that gives no CPU utilization is reported at 60 %, one that gives no node
      count as one node. */
  lemma PayloadDefaults(raw: RawEvent)
    requires Valid(raw) && raw.metrics.value.cpuUtilAvg.Absent?
    requires EventToPayload(ApplyDefaults(raw)).Success?
    ensures EventToPayload(ApplyDefaults(raw)).value.avgCpuUtilization == Some(60.0)
    ensures raw.metrics.value.nodes.Absent? ==> EventToPayload(ApplyDefaults(raw)).value.nodeCount == Some(1.0)
  {
  }

  /** The events route can hand the engine an empty cloud or region, which the usage route
      would refuse; otherwise every key that route requires is non-empty. */
  lemma PayloadRequiredFields(ev: WorkloadEvent)
    requires EventToPayload(ev).Success?
    ensures var p := EventToPayload(ev).value;
      && p.source != ""
      && (ev.workload.region != Some("") <==> p.regionCode != "")
      && (ev.labels.Some? && "cloud" in ev.labels.value && ev.labels.value["cloud"] == LStr("")
          <==> p.cloud == "")
  {
    var p := EventToPayload(ev).value;
    if ev.labels.Some? && "cloud" in ev.labels.value {
      assert |p.cloud| == |ev.labels.value["cloud"].s|;
    }
  }

  // ---------------------------------------------------------------------------
  // The token gate

  predicate OccursAt(s: string, pat: string, i: nat) {
    i + |pat| <= |s| && s[i..i + |pat|] == pat
  }

  /** The first position at or after `from` where `pat` occurs in `s`. */
  function IndexFrom(s: string, pat: string, from: nat): (r: Option<nat>)
    requires from <= |s|
    ensures r.Some? ==> from <= r.value && OccursAt(s, pat, r.value)
    ensures r.Some? ==> forall j :: from <= j < r.value ==> !OccursAt(s, pat, j)
    ensures r.None? ==> forall j :: from <= j <= |s| ==> !OccursAt(s, pat, j)
    decreases |s| - from
  {
    if OccursAt(s, pat, from) then Some(from)
    else if from == |s| then None
    else IndexFrom(s, pat, from + 1)
  }

  function IndexOf(s: string, pat: string): Option<nat> {
    IndexFrom(s, pat, 0)
  }

  /** `s.replace(pat, rep)` with a string pattern: only the first occurrence is replaced. */
  function ReplaceFirst(s: string, pat: string, rep: string): (r: string)
    ensures IndexOf(s, pat).None? ==> r == s
    ensures IndexOf(s, pat).Some? ==> |r| == |s| - |pat| + |rep|
    ensures IndexOf(s, pat).Some? ==>
      var i := IndexOf(s, pat).value;
      && i + |pat| <= |s|
      && r[..i] == s[..i]
      && r[i..i + |rep|] == rep
      && r[i + |rep|..] == s[i + |pat|..]
  {
    match IndexOf(s, pat)
    case None => s
    case Some(i) => s[..i] + rep + s[i + |pat|..]
  }

  const BearerPrefix: string := "Bearer "

  /** The token a request presents: its `authorization` header with the first
      "Bearer " removed, wherever in the header it stands. Node keeps a single
      `authorization` header, so the header is one string. */
  function PresentedToken(authorization: Option<string>): (t: Option<string>)
    ensures t.None? <==> authorization.None?
    ensures t.Some? && IndexOf(authorization.value, BearerPrefix).None? ==> t.value == authorization.value
    ensures t.Some? && IndexOf(authorization.value, BearerPrefix).Some? ==>
      var h, i := authorization.value, IndexOf(authorization.value, BearerPrefix).value;
      && i + |BearerPrefix| <= |h|
      && t.value == h[..i] + h[i + |BearerPrefix|..]
      && |t.value| == |h| - |BearerPrefix|
  {
    match authorization
    case None => None
    case Some(h) =>
      var r := ReplaceFirst(h, BearerPrefix, "");
      assert IndexOf(h, BearerPrefix).Some? ==>
        var i := IndexOf(h, BearerPrefix).value;
        r == r[..i] + r[i..] == h[..i] + h[i + |BearerPrefix|..];
      Some(r)
  }

  /** The gate is closed only when an ingest token is configured (and non-empty), and then
      the presented token must equal it. */
  predicate Authorized(ingestToken: Option<string>, authorization: Option<string>) {
    ingestToken.None? || ingestToken.value == "" || PresentedToken(authorization) == Some(ingestToken.value)
  }

  lemma BearerStripped(t: string)
    ensures PresentedToken(Some(BearerPrefix + t)) == Some(t)
  {
    var h := BearerPrefix + t;
    assert |BearerPrefix| == 7;
    assert OccursAt(h, BearerPrefix, 0) by {
      assert h[0..|BearerPrefix|] == BearerPrefix;
    }
    assert IndexOf(h, BearerPrefix) == Some(0);
    assert h[..0] + "" + h[0 + |BearerPrefix|..] == t;
  }

  /** With no token configured, every request passes the gate. */
  lemma GateOpenWithoutToken(ingestToken: Option<string>, authorization: Option<string>)
    requires ingestToken.None? || ingestToken == Some("")
    ensures Authorized(ingestToken, authorization)
  {
  }

  /** With a token configured, a request without the header is refused, and a
      "Bearer <t>" header passes exactly when t is the token. */
  lemma GateWithToken(token: string, t: string)
    requires token != ""
    ensures !Authorized(Some(token), None)
    ensures Authorized(Some(token), Some(BearerPrefix + t)) <==> t == token
  {
    BearerStripped(t);
  }

  /** The scheme is optional: the bare token passes too, when it does not itself hold
      "Bearer ". */
  lemma GateBareToken(token: string)
    requires token != "" && IndexOf(token, BearerPrefix).None?
    ensures Authorized(Some(token), Some(token))
  {
  }

  // ---------------------------------------------------------------------------
  // The required-key check of /ingest/usage

  const RequiredKeys: seq<string> := ["source", "cloud", "regionCode", "startedAt", "endedAt"]

  function Lookup(body: map<string, Json>, key: string): Option<Json> {
    if key in body then Some(body[key]) else None
  }

  /** The index of the first key, at or after `from`, whose value in the body is falsy. */
  function FirstFalsyFrom(body: map<string, Json>, keys: seq<string>, from: nat): (m: Option<nat>)
    requires from <= |keys|
    ensures m.Some? ==> from <= m.value < |keys| && !Truthy(Lookup(body, keys[m.value]))
    ensures m.Some? ==> forall j :: from <= j < m.value ==> Truthy(Lookup(body, keys[j]))
    ensures m.None? <==> forall j :: from <= j < |keys| ==> Truthy(Lookup(body, keys[j]))
    decreases |keys| - from
  {
    if from == |keys| then None
    else if !Truthy(Lookup(body, keys[from])) then Some(from)
    else FirstFalsyFrom(body, keys, from + 1)
  }

  function FirstFalsy(body: map<string, Json>, keys: seq<string>): Option<nat> {
    FirstFalsyFrom(body, keys, 0)
  }

  /** The handler's loop over the required keys: the first key whose value is falsy. */
  method MissingKey(body: map<string, Json>, keys: seq<string>) returns (missing: Option<string>)
    ensures missing.None? <==> forall j :: 0 <= j < |keys| ==> Truthy(Lookup(body, keys[j]))
    ensures missing.Some? ==> FirstFalsy(body, keys).Some? && missing.value == keys[FirstFalsy(body, keys).value]
  {
    var i := 0;
    while i < |keys|
      invariant 0 <= i <= |keys|
      invariant forall j :: 0 <= j < i ==> Truthy(Lookup(body, keys[j]))
    {
      if !Truthy(Lookup(body, keys[i])) {
        var first := FirstFalsy(body, keys);
        assert first.Some? && first.value == i;
        return Some(keys[i]);
      }
      i := i + 1;
    }
    return None;
  }

  // ---------------------------------------------------------------------------
  // The routes' decisions

  datatype Reply<+E, +T> = Unauthorized | BadRequest(error: E) | ServerError(message: string) | Accepted(value: T)
  {
    function StatusCode(): int {
      match this
      case Unauthorized => 401
      case BadRequest(_) => 400
      case ServerError(_) => 500
      case Accepted(_) => 200
    }
  }

  /** `/ingest/usage`: the gate, then the required keys; an accepted body goes to the engine. */
  function IngestUsage(ingestToken: Option<string>, authorization: Option<string>, body: map<string, Json>)
    : (r: Reply<string, map<string, Json>>)
    ensures r.Unauthorized? <==> !Authorized(ingestToken, authorization)
    ensures r.Accepted? <==> (Authorized(ingestToken, authorization)
      && forall j :: 0 <= j < |RequiredKeys| ==> Truthy(Lookup(body, RequiredKeys[j])))
    ensures r.BadRequest? ==> exists j :: (0 <= j < |RequiredKeys| && r.error == "missing " + RequiredKeys[j]
      && !Truthy(Lookup(body, RequiredKeys[j])))
    ensures !r.ServerError?
  {
    if !Authorized(ingestToken, authorization) then Unauthorized
    else match FirstFalsy(body, RequiredKeys)
      case Some(j) => BadRequest("missing " + RequiredKeys[j])
      case None => Accepted(body)
  }

  /** `/ingest/events`: the gate, then the schema, then the mapping to a usage payload. The
      route declares no body schema, so any body reaches the event schema; `None` is a body
      that is not a JSON object. */
  function IngestEvents(ingestToken: Option<string>, authorization: Option<string>, body: Option<RawEvent>)
    : (r: Reply<Flattened, UsageIngestPayload>)
    ensures r.Unauthorized? <==> !Authorized(ingestToken, authorization)
    ensures r.BadRequest? <==> Authorized(ingestToken, authorization) && !(body.Some? && Valid(body.value))
    ensures r.BadRequest? && body.None? ==> r.error == Flattened(true, {})
    ensures r.BadRequest? && body.Some? ==>
      r.error == Flattened(false, FieldErrors(body.value)) && r.error.fieldErrors != {}
    ensures r.ServerError? <==> (Authorized(ingestToken, authorization) && body.Some? && Valid(body.value)
      && CloudOf(ApplyDefaults(body.value).labels).Failure?)
    ensures r.Accepted? ==> body.Some? && r.value == EventToPayload(ApplyDefaults(body.value)).value
  {
    if !Authorized(ingestToken, authorization) then Unauthorized
    else match SafeParseBody(body)
      case Failure(errors) => BadRequest(errors)
      case Success(ev) =>
        match EventToPayload(ev)
        case Failure(e) => ServerError(e)
        case Success(p) => Accepted(p)
  }

  /** A body the usage route accepts names every required key, in the handler's order: an
      error reports the first key that is missing or empty. */
  lemma UsageReportsFirstMissing(ingestToken: Option<string>, authorization: Option<string>,
      body: map<string, Json>, j: nat)
    requires Authorized(ingestToken, authorization)
    requires j < |RequiredKeys| && !Truthy(Lookup(body, RequiredKeys[j]))
    requires forall i :: 0 <= i < j ==> Truthy(Lookup(body, RequiredKeys[i]))
    ensures IngestUsage(ingestToken, authorization, body) == BadRequest("missing " + RequiredKeys[j])
  {
    var first := FirstFalsy(body, RequiredKeys);
    assert first.Some?;
    assert first.value == j;
  }

  /** An accepted event's payload carries its utilizations as percentages in [0, 100]. */
  lemma EventsAcceptedRanges(ingestToken: Option<string>, authorization: Option<string>, body: Option<RawEvent>)
    requires IngestEvents(ingestToken, authorization, body).Accepted?
    ensures var p := IngestEvents(ingestToken, authorization, body).value;
      && p.avgCpuUtilization.Some? && 0.0 <= p.avgCpuUtilization.value <= 100.0
      && (p.avgGpuUtilization.Some? ==> 0.0 <= p.avgGpuUtilization.value <= 100.0)
  {
    PayloadRanges(ApplyDefaults(body.value));
  }
}

=== FILE: schema.dfy ===
/** The event schema of the `/ingest/events` route: which raw workload events are accepted,
    the defaults filled into an accepted event, and the top-level keys an error is reported
    under. Timestamps are milliseconds since the epoch rather than ISO strings. */
module Schema {
  import opened Values

  // ---------------------------------------------------------------------------
  // The request body as it arrives: every member may be missing, null or present

  datatype RawWorkload = RawWorkload(
    externalId: Field<string>,
    name: Field<string>,
    kind: Field<string>,
    region: Field<string>,
    resourceSku: Field<string>)

  datatype RawMetrics = RawMetrics(
    durationMs: Field<real>,
    cpuUtilAvg: Field<real>,
    memGb: Field<real>,
    bytesRead: Field<real>,
    bytesWritten: Field<real>,
    nodes: Field<real>,
    gpuType: Field<string>,
    gpuUtilAvg: Field<real>)

  datatype RawTimestamps = RawTimestamps(startedAt: Field<int>, endedAt: Field<int>)

  datatype RawEvent = RawEvent(
    eventType: Field<string>,
    orgId: Field<string>,
    projectId: Field<string>,
    workload: Field<RawWorkload>,
    metrics: Field<RawMetrics>,
    timestamps: Field<RawTimestamps>,
    labels: Field<map<string, Json>>)

  // ---------------------------------------------------------------------------
  // The parsed event, with defaults applied

  datatype Kind = Spark | Sql | Ml

  /** A label value: the schema admits strings, numbers and booleans only. */
  datatype Label = LStr(s: string) | LNum(n: real) | LBool(b: bool)

  datatype Workload = Workload(
    externalId: string,
    name: Option<string>,
    kind: Kind,
    region: Option<string>,
    resourceSku: Option<string>)

  /** `gpuType` and `gpuUtilAvg` are nullable as well as optional, so they keep all three states. */
  datatype Metrics = Metrics(
    durationMs: real,
    cpuUtilAvg: real,
    memGb: Option<real>,
    bytesRead: Option<real>,
    bytesWritten: Option<real>,
    nodes: real,
    gpuType: Field<string>,
    gpuUtilAvg: Field<real>)

  datatype Timestamps = Timestamps(startedAt: Option<int>, endedAt: int)

  datatype WorkloadEvent = WorkloadEvent(
    eventType: string,
    orgId: string,
    projectId: string,
    workload: Workload,
    metrics: Metrics,
    timestamps: Timestamps,
    labels: Option<map<string, Label>>)

  const DefaultDurationMs: real := 1.0
  const DefaultCpuUtilAvg: real := 0.6
  const DefaultNodes: real := 1.0

  /** The enum `kind`: "spark", "sql" or "ml". */
  function KindOf(s: string): (k: Option<Kind>)
    ensures k.None? <==> s != "spark" && s != "sql" && s != "ml"
  {
    if s == "spark" then Some(Spark)
    else if s == "sql" then Some(Sql)
    else if s == "ml" then Some(Ml)
    else None
  }

  function KindName(k: Kind): (s: string)
    ensures KindOf(s) == Some(k)
  {
    match k
    case Spark => "spark"
    case Sql => "sql"
    case Ml => "ml"
  }

  /** Parsing a kind name and naming the kind gives back the name. */
  lemma KindRoundTrip(s: string)
    requires KindOf(s).Some?
    ensures KindName(KindOf(s).value) == s
  {
  }

  // ---------------------------------------------------------------------------
  // Which events the schema accepts

  predicate NonNegInt(x: real) {
    IsInt(x) && x >= 0.0
  }

  predicate PosInt(x: real) {
    IsInt(x) && x > 0.0
  }

  predicate InUnit(x: real) {
    0.0 <= x <= 1.0
  }

  /** A member that is optional but not nullable: missing is fine, null is not. */
  predicate NotNull<T>(f: Field<T>) {
    !f.Null?
  }

  predicate IsScalar(j: Json) {
    j.JStr? || j.JNum? || j.JBool?
  }

  predicate ValidWorkload(w: RawWorkload) {
    && w.externalId.Present?
    && NotNull(w.name)
    && w.kind.Present? && KindOf(w.kind.value).Some?
    && NotNull(w.region)
    && NotNull(w.resourceSku)
  }

  /** A defaulted member may be missing; when present it must meet its rule. */
  predicate ValidMetrics(m: RawMetrics) {
    && (m.durationMs.Absent? || (m.durationMs.Present? && NonNegInt(m.durationMs.value)))
    && (m.cpuUtilAvg.Absent? || (m.cpuUtilAvg.Present? && InUnit(m.cpuUtilAvg.value)))
    && NotNull(m.memGb)
    && (m.bytesRead.Absent? || (m.bytesRead.Present? && NonNegInt(m.bytesRead.value)))
    && (m.bytesWritten.Absent? || (m.bytesWritten.Present? && NonNegInt(m.bytesWritten.value)))
    && (m.nodes.Absent? || (m.nodes.Present? && PosInt(m.nodes.value)))
    && (m.gpuUtilAvg.Present? ==> InUnit(m.gpuUtilAvg.value))
  }

  predicate ValidTimestamps(t: RawTimestamps) {
    NotNull(t.startedAt) && t.endedAt.Present?
  }

  predicate ValidLabels(l: Field<map<string, Json>>) {
    l.Absent? || (l.Present? && forall k :: k in l.value ==> IsScalar(l.value[k]))
  }

  /** Whether the schema accepts a body. */
  predicate Valid(raw: RawEvent) {
    && raw.eventType.Present?
    && raw.orgId.Present?
    && raw.projectId.Present?
    && raw.workload.Present? && ValidWorkload(raw.workload.value)
    && raw.metrics.Present? && ValidMetrics(raw.metrics.value)
    && raw.timestamps.Present? && ValidTimestamps(raw.timestamps.value)
    && ValidLabels(raw.labels)
  }

  /** The top-level members of an event, under which a flattened error groups its problems. */
  datatype SchemaKey = EventTypeKey | OrgIdKey | ProjectIdKey | WorkloadKey | MetricsKey | TimestampsKey | LabelsKey
  {
    function Name(): string {
      match this
      case EventTypeKey => "event_type"
      case OrgIdKey => "org_id"
      case ProjectIdKey => "project_id"
      case WorkloadKey => "workload"
      case MetricsKey => "metrics"
      case TimestampsKey => "timestamps"
      case LabelsKey => "labels"
    }
  }

  const AllKeys: set<SchemaKey> :=
    {EventTypeKey, OrgIdKey, ProjectIdKey, WorkloadKey, MetricsKey, TimestampsKey, LabelsKey}

  /** Whether the schema accepts the member of a body under one top-level key. */
  predicate MemberOk(raw: RawEvent, k: SchemaKey) {
    match k
    case EventTypeKey => raw.eventType.Present?
    case OrgIdKey => raw.orgId.Present?
    case ProjectIdKey => raw.projectId.Present?
    case WorkloadKey => raw.workload.Present? && ValidWorkload(raw.workload.value)
    case MetricsKey => raw.metrics.Present? && ValidMetrics(raw.metrics.value)
    case TimestampsKey => raw.timestamps.Present? && ValidTimestamps(raw.timestamps.value)
    case LabelsKey => ValidLabels(raw.labels)
  }

  /** The top-level keys under which the flattened error reports a problem. */
  function FieldErrors(raw: RawEvent): (e: set<SchemaKey>)
    ensures e == {} <==> Valid(raw)
    ensures EventTypeKey in e <==> !raw.eventType.Present?
    ensures OrgIdKey in e <==> !raw.orgId.Present?
    ensures ProjectIdKey in e <==> !raw.projectId.Present?
    ensures WorkloadKey in e <==> !(raw.workload.Present? && ValidWorkload(raw.workload.value))
    ensures MetricsKey in e <==> !(raw.metrics.Present? && ValidMetrics(raw.metrics.value))
    ensures TimestampsKey in e <==> !(raw.timestamps.Present? && ValidTimestamps(raw.timestamps.value))
    ensures LabelsKey in e <==> !ValidLabels(raw.labels)
  {
    var e := set k | k in AllKeys && !MemberOk(raw, k);
    assert e == {} ==> Valid(raw) by {
      if e == {} {
        forall k | k in AllKeys ensures MemberOk(raw, k) {
          assert k !in e;
        }
      }
    }
    e
  }

  /** What the parsed event promises its consumers. */
  predicate WellFormed(ev: WorkloadEvent) {
    && NonNegInt(ev.metrics.durationMs)
    && InUnit(ev.metrics.cpuUtilAvg)
    && (ev.metrics.bytesRead.Some? ==> NonNegInt(ev.metrics.bytesRead.value))
    && (ev.metrics.bytesWritten.Some? ==> NonNegInt(ev.metrics.bytesWritten.value))
    && PosInt(ev.metrics.nodes)
    && (ev.metrics.gpuUtilAvg.Present? ==> InUnit(ev.metrics.gpuUtilAvg.value))
  }

  // ---------------------------------------------------------------------------
  // Parsing

  function OptionOf<T>(f: Field<T>): Option<T> {
    if f.Present? then Some(f.value) else None
  }

  function FieldOf<T>(o: Option<T>): Field<T> {
    if o.Some? then Present(o.value) else Absent
  }

  function LabelOf(j: Json): Label
    requires IsScalar(j)
  {
    match j
    case JStr(s) => LStr(s)
    case JNum(n) => LNum(n)
    case JBool(b) => LBool(b)
  }

  function LabelJson(l: Label): (j: Json)
    ensures IsScalar(j) && LabelOf(j) == l
  {
    match l
    case LStr(s) => JStr(s)
    case LNum(n) => JNum(n)
    case LBool(b) => JBool(b)
  }

  /** The member's value, or its default when it is missing. */
  function Defaulted(f: Field<real>, default: real): (x: real)
    requires !f.Null?
    ensures f.Absent? ==> x == default
    ensures f.Present? ==> x == f.value
  {
    if f.Present? then f.value else default
  }

  /** The parsed event of an accepted body: duration 1 ms, CPU 0.6 and one node when missing. */
  function ApplyDefaults(raw: RawEvent): (ev: WorkloadEvent)
    requires Valid(raw)
    ensures WellFormed(ev)
    ensures raw.metrics.value.durationMs.Absent? ==> ev.metrics.durationMs == 1.0
    ensures raw.metrics.value.cpuUtilAvg.Absent? ==> ev.metrics.cpuUtilAvg == 0.6
    ensures raw.metrics.value.nodes.Absent? ==> ev.metrics.nodes == 1.0
    ensures raw.metrics.value.durationMs.Present? ==> ev.metrics.durationMs == raw.metrics.value.durationMs.value
    ensures raw.metrics.value.cpuUtilAvg.Present? ==> ev.metrics.cpuUtilAvg == raw.metrics.value.cpuUtilAvg.value
    ensures raw.metrics.value.nodes.Present? ==> ev.metrics.nodes == raw.metrics.value.nodes.value
    ensures KindName(ev.workload.kind) == raw.workload.value.kind.value
    ensures ev.timestamps.endedAt == raw.timestamps.value.endedAt.value
  {
    var w := raw.workload.value;
    var m := raw.metrics.value;
    var t := raw.timestamps.value;
    WorkloadEvent(
      raw.eventType.value,
      raw.orgId.value,
      raw.projectId.value,
      Workload(w.externalId.value, OptionOf(w.name), KindOf(w.kind.value).value,
        OptionOf(w.region), OptionOf(w.resourceSku)),
      Metrics(
        Defaulted(m.durationMs, DefaultDurationMs),
        Defaulted(m.cpuUtilAvg, DefaultCpuUtilAvg),
        OptionOf(m.memGb),
        OptionOf(m.bytesRead),
        OptionOf(m.bytesWritten),
        Defaulted(m.nodes, DefaultNodes),
        m.gpuType,
        m.gpuUtilAvg),
      Timestamps(OptionOf(t.startedAt), t.endedAt.value),
      if raw.labels.Present? then Some(map k | k in raw.labels.value :: LabelOf(raw.labels.value[k])) else None)
  }

  /** `EventSchema.safeParse`: the parsed event, or the keys the error is reported under. */
  function SafeParse(raw: RawEvent): (r: Result<WorkloadEvent, set<SchemaKey>>)
    ensures r.Success? <==> Valid(raw)
    ensures r.Success? ==> WellFormed(r.value)
    ensures r.Failure? ==> r.error != {}
  {
    if Valid(raw) then Success(ApplyDefaults(raw)) else Failure(FieldErrors(raw))
  }

  /** What `flatten()` reports for a refused body: whether there is a form-level error
      (the body is not a JSON object at all) and the top-level keys with field errors. */
  datatype Flattened = Flattened(formError: bool, fieldErrors: set<SchemaKey>)

  /** `EventSchema.safeParse` on any request body; `None` is a body that is not a JSON
      object (absent, null, an array or a scalar), which fails as a whole, with no key. */
  function SafeParseBody(body: Option<RawEvent>): (r: Result<WorkloadEvent, Flattened>)
    ensures r.Success? <==> body.Some? && Valid(body.value)
    ensures body.None? ==> r == Failure(Flattened(true, {}))
    ensures body.Some? && r.Failure? ==>
      !r.error.formError && r.error.fieldErrors != {} && r.error.fieldErrors == FieldErrors(body.value)
    ensures r.Success? ==> WellFormed(r.value) && r.value == SafeParse(body.value).value
  {
    match body
    case None => Failure(Flattened(true, {}))
    case Some(raw) =>
      match SafeParse(raw)
      case Success(ev) => Success(ev)
      case Failure(keys) => Failure(Flattened(false, keys))
  }

  // ---------------------------------------------------------------------------
  // Printing a parsed event back as a body, and the round trip

  /** A body that spells out every member of a parsed event. */
  function ToRaw(ev: WorkloadEvent): RawEvent {
    var w := ev.workload;
    var m := ev.metrics;
    var t := ev.timestamps;
    RawEvent(
      Present(ev.eventType),
      Present(ev.orgId),
      Present(ev.projectId),
      Present(RawWorkload(Present(w.externalId), FieldOf(w.name), Present(KindName(w.kind)),
        FieldOf(w.region), FieldOf(w.resourceSku))),
      Present(RawMetrics(Present(m.durationMs), Present(m.cpuUtilAvg), FieldOf(m.memGb),
        FieldOf(m.bytesRead), FieldOf(m.bytesWritten), Present(m.nodes), m.gpuType, m.gpuUtilAvg)),
      Present(RawTimestamps(FieldOf(t.startedAt), Present(t.endedAt))),
      if ev.labels.Some? then Present(map k | k in ev.labels.value :: LabelJson(ev.labels.value[k])) else Absent)
  }

  lemma LabelsRoundTrip(labels: map<string, Label>)
    ensures var raw := map k | k in labels :: LabelJson(labels[k]);
      && (forall k :: k in raw ==> IsScalar(raw[k]))
      && (map k | k in raw :: LabelOf(raw[k])) == labels
  {
    var raw := map k | k in labels :: LabelJson(labels[k]);
    var back := map k | k in raw :: LabelOf(raw[k]);
    assert back.Keys == labels.Keys;
    forall k | k in back ensures back[k] == labels[k] {
      assert raw[k] == LabelJson(labels[k]);
    }
  }

  /** Every well-formed event is accepted when printed back, and parses to itself. */
  lemma ParseToRaw(ev: WorkloadEvent)
    requires WellFormed(ev)
    ensures Valid(ToRaw(ev))
    ensures SafeParse(ToRaw(ev)) == Success(ev)
  {
    if ev.labels.Some? {
      LabelsRoundTrip(ev.labels.value);
    }
    var raw := ToRaw(ev);
    assert ValidMetrics(raw.metrics.value);
    var back := ApplyDefaults(raw);
    assert back.workload == ev.workload;
    assert back.metrics == ev.metrics;
    assert back.timestamps == ev.timestamps;
    assert back.labels == ev.labels;
  }

  /** Parsing is idempotent: printing a parsed event and parsing it again changes nothing. */
  lemma ParseIdempotent(raw: RawEvent)
    requires Valid(raw)
    ensures SafeParse(ToRaw(ApplyDefaults(raw))) == SafeParse(raw)
  {
    ParseToRaw(ApplyDefaults(raw));
  }

  /** An event with an empty `metrics` object gets every documented default. */
  lemma MinimalEvent(kind: string, endedAt: int)
    requires KindOf(kind).Some?
    ensures var raw := RawEvent(Present("job_end"), Present("org"), Present("proj"),
        Present(RawWorkload(Present("run-1"), Absent, Present(kind), Absent, Absent)),
        Present(RawMetrics(Absent, Absent, Absent, Absent, Absent, Absent, Absent, Absent)),
        Present(RawTimestamps(Absent, Present(endedAt))),
        Absent);
      && SafeParse(raw).Success?
      && SafeParse(raw).value.metrics == Metrics(1.0, 0.6, None, None, None, 1.0, Absent, Absent)
      && SafeParse(raw).value.timestamps == Timestamps(None, endedAt)
  {
  }

  /** An event whose `metrics` object is missing is refused, even though each of its
      members has a default. */
  lemma MissingMetricsRefused(raw: RawEvent)
    requires raw.metrics.Absent?
    ensures SafeParse(raw).Failure? && MetricsKey in SafeParse(raw).error
  {
  }
}

=== FILE: sql.dfy ===
/** The meaning of the SQL aggregates the dashboard queries use. SUM, MAX and AVG skip
    NULLs and are NULL over a column with no non-NULL value, so `COALESCE(SUM(x), 0)`
    is the sum with NULLs read as zero. */
module Sql {
  import opened Values

  /** The sum of a column with NULLs read as zero. */
  function ZeroSum(vals: seq<Option<real>>): real
  {
    if vals == [] then 0.0 else vals[0].GetOr(0.0) + ZeroSum(vals[1..])
  }

  /** The number of non-NULL entries of a column (what `COUNT(x)` and `AVG` count). */
  function CountNonNull(vals: seq<Option<real>>): (n: nat)
    ensures n <= |vals|
    ensures n == 0 <==> forall i :: 0 <= i < |vals| ==> vals[i].None?
  {
    if vals == [] then 0
    else (if vals[0].Some? then 1 else 0) + CountNonNull(vals[1..])
  }

  /** A column without NULLs has every entry counted. */
  lemma {:induction false} AllPresentCounted(vals: seq<Option<real>>)
    requires forall i :: 0 <= i < |vals| ==> vals[i].Some?
    ensures CountNonNull(vals) == |vals|
  {
    if vals != [] {
      AllPresentCounted(vals[1..]);
    }
  }

  /** One step of `SUM`: adds an entry to the sum of the entries after it. */
  function SumStep(x: Option<real>, rest: Option<real>): Option<real> {
    match x
    case None => rest
    case Some(v) => Some(v + rest.GetOr(0.0))
  }

  /** `SUM(x)`: NULL exactly when no entry is non-NULL, otherwise the sum of the others. */
  function Sum(vals: seq<Option<real>>): (s: Option<real>)
    ensures s.None? <==> forall i :: 0 <= i < |vals| ==> vals[i].None?
    ensures s.GetOr(0.0) == ZeroSum(vals)
  {
    if vals == [] then None
    else SumStep(vals[0], Sum(vals[1..]))
  }

  lemma SumCons(x: Option<real>, vals: seq<Option<real>>)
    ensures Sum([x] + vals) == SumStep(x, Sum(vals))
  {
    assert ([x] + vals)[1..] == vals;
  }

  /** `AVG(x)`: the mean of the non-NULL entries, NULL when there are none. */
  function Avg(vals: seq<Option<real>>): (a: Option<real>)
    ensures a.None? <==> forall i :: 0 <= i < |vals| ==> vals[i].None?
    ensures a.Some? ==> a.value * (CountNonNull(vals) as real) == ZeroSum(vals)
  {
    var n := CountNonNull(vals);
    if n == 0 then None else Some(ZeroSum(vals) / n as real)
  }

  lemma ZeroSumCons(x: Option<real>, vals: seq<Option<real>>)
    ensures ZeroSum([x] + vals) == x.GetOr(0.0) + ZeroSum(vals)
  {
    assert ([x] + vals)[1..] == vals;
  }

  /** When every entry is present and lies in [0, 1], the sum lies between zero and the
      number of entries. */
  lemma {:induction false} ZeroSumUnitBounds(vals: seq<Option<real>>)
    requires forall i :: 0 <= i < |vals| ==> vals[i].Some? && 0.0 <= vals[i].value <= 1.0
    ensures CountNonNull(vals) == |vals|
    ensures 0.0 <= ZeroSum(vals) <= |vals| as real
  {
    if vals != [] {
      ZeroSumUnitBounds(vals[1..]);
    }
  }

  /** When every entry is present and equal to `c`, the sum is `c` times the count. */
  lemma {:induction false} ZeroSumConstant(vals: seq<Option<real>>, c: real)
    requires forall i :: 0 <= i < |vals| ==> vals[i] == Some(c)
    ensures CountNonNull(vals) == |vals|
    ensures ZeroSum(vals) == c * |vals| as real
  {
    if vals != [] {
      ZeroSumConstant(vals[1..], c);
    }
  }

  /** The average of a column holding v in every entry is v. */
  lemma AvgConstant(vals: seq<Option<real>>, v: real)
    requires vals != []
    requires forall i :: 0 <= i < |vals| ==> vals[i] == Some(v)
    ensures Avg(vals) == Some(v)
  {
    ZeroSumConstant(vals, v);
    var n := CountNonNull(vals) as real;
    assert n == |vals| as real;
    MeanOfConstant(v, n, ZeroSum(vals), ZeroSum(vals) / n);
  }

  /** n copies of v, summed and divided by n, give v. */
  lemma MeanOfConstant(v: real, n: real, s: real, a: real)
    requires n > 0.0 && s == v * n && a == s / n
    ensures a == v
  {
    assert a * n == v * n;
  }

  /** One step of `MAX` over timestamps: the larger of an entry and the maximum after it. */
  function MaxTimeStep(x: Option<int>, rest: Option<int>): Option<int> {
    if x.None? then rest
    else if rest.Some? && x.value <= rest.value then rest
    else x
  }

  /** `MAX(t)` over a timestamp column. */
  function MaxTime(vals: seq<Option<int>>): (m: Option<int>)
    ensures m.None? <==> forall i :: 0 <= i < |vals| ==> vals[i].None?
    ensures m.Some? ==> m in vals
    ensures m.Some? ==> forall i :: 0 <= i < |vals| && vals[i].Some? ==> vals[i].value <= m.value
  {
    if vals == [] then None
    else
      assert forall i :: 1 <= i < |vals| ==> vals[i] == vals[1..][i - 1];
      MaxTimeStep(vals[0], MaxTime(vals[1..]))
  }

  lemma MaxTimeCons(x: Option<int>, vals: seq<Option<int>>)
    ensures MaxTime([x] + vals) == MaxTimeStep(x, MaxTime(vals))
  {
    assert ([x] + vals)[1..] == vals;
  }

  /** Code-point lexicographic order on text, as under the "C" collation. */
  predicate TextLe(a: string, b: string)
    decreases |a|
  {
    |a| == 0 || (|b| > 0 && (a[0] < b[0] || (a[0] == b[0] && TextLe(a[1..], b[1..]))))
  }

  lemma {:induction false} TextLeReflexive(a: string)
    ensures TextLe(a, a)
    decreases |a|
  {
    if |a| > 0 {
      TextLeReflexive(a[1..]);
    }
  }

  lemma {:induction false} TextLeTotal(a: string, b: string)
    ensures TextLe(a, b) || TextLe(b, a)
    decreases |a|
  {
    if |a| > 0 && |b| > 0 && a[0] == b[0] {
      TextLeTotal(a[1..], b[1..]);
    }
  }

  lemma {:induction false} TextLeTransitive(a: string, b: string, c: string)
    requires TextLe(a, b) && TextLe(b, c)
    ensures TextLe(a, c)
    decreases |a|
  {
    if |a| > 0 && a[0] == b[0] && b[0] == c[0] {
      TextLeTransitive(a[1..], b[1..], c[1..]);
    }
  }

  /** One step of `MAX` over text: the larger of an entry and the maximum after it. */
  function MaxTextStep(x: Option<string>, rest: Option<string>): Option<string> {
    if x.None? then rest
    else if rest.Some? && TextLe(x.value, rest.value) then rest
    else x
  }

  /** `MAX(t)` over a text column. */
  function MaxText(vals: seq<Option<string>>): (m: Option<string>)
    ensures m.None? <==> forall i :: 0 <= i < |vals| ==> vals[i].None?
    ensures m.Some? ==> m in vals
    ensures m.Some? ==> forall i :: 0 <= i < |vals| && vals[i].Some? ==> TextLe(vals[i].value, m.value)
  {
    if vals == [] then None
    else
      var rest := MaxText(vals[1..]);
      assert forall i :: 1 <= i < |vals| ==> vals[i] == vals[1..][i - 1];
      if vals[0].Some? && !(rest.Some? && TextLe(vals[0].value, rest.value)) then
        TextLeReflexive(vals[0].value);
        TextLeTotal(vals[0].value, rest.GetOr(""));
        MaxTextDominates(vals[1..], rest, vals[0].value);
        MaxTextStep(vals[0], rest)
      else MaxTextStep(vals[0], rest)
  }

  lemma MaxTextCons(x: Option<string>, vals: seq<Option<string>>)
    ensures MaxText([x] + vals) == MaxTextStep(x, MaxText(vals))
  {
    assert ([x] + vals)[1..] == vals;
  }

  lemma MaxTextDominates(vals: seq<Option<string>>, m: Option<string>, top: string)
    requires m.Some? ==> forall i :: 0 <= i < |vals| && vals[i].Some? ==> TextLe(vals[i].value, m.value)
    requires m.None? ==> forall i :: 0 <= i < |vals| ==> vals[i].None?
    requires m.Some? ==> TextLe(m.value, top)
    ensures forall i :: 0 <= i < |vals| && vals[i].Some? ==> TextLe(vals[i].value, top)
  {
    forall i | 0 <= i < |vals| && vals[i].Some?
      ensures TextLe(vals[i].value, top)
    {
      TextLeTransitive(vals[i].value, m.value, top);
    }
  }
}

=== FILE: values.dfy ===
/** Value shapes shared by the whole model: optional values, JSON fields that may be
    absent or null, and the scalar JSON values the handlers inspect. */
module Values {

  /** A value that may be missing (`undefined` in the source, SQL NULL in query results). */
  datatype Option<+T> = None | Some(value: T) {
    /** The `??` operator: the value when present, otherwise the fallback. */
    function GetOr(fallback: T): T {
      match this
      case Some(v) => v
      case None => fallback
    }
  }

  datatype Result<+T, +E> = Success(value: T) | Failure(error: E)

  /** A JSON object member as a schema validator sees it: missing, explicitly null, or present. */
  datatype Field<+T> = Absent | Null | Present(value: T)

  /** A JSON value. Arrays and objects are never inspected member by member here, so they
      are one case. */
  datatype Json = JNull | JBool(b: bool) | JNum(n: real) | JStr(s: string) | JComposite

  /** JavaScript truthiness of a looked-up object member (`None` is `undefined`).
      NaN cannot arise from a JSON body, so a number is falsy exactly when it is zero. */
  predicate Truthy(v: Option<Json>) {
    match v
    case None => false
    case Some(JNull) => false
    case Some(JBool(b)) => b
    case Some(JNum(n)) => n != 0.0
    case Some(JStr(s)) => s != ""
    case Some(JComposite) => true
  }

  /** Milliseconds per hour, for timestamps and durations kept in milliseconds. */
  const MsPerHour: real := 3600000.0

  /** `Number.isInteger` on a finite number. */
  predicate IsInt(x: real) {
    x.Floor as real == x
  }

  function Max(a: real, b: real): real {
    if a >= b then a else b
  }

  function Min(a: real, b: real): real {
    if a <= b then a else b
  }

  /** `Math.max(lo, Math.min(hi, x))`. */
  function Clamp(x: real, lo: real, hi: real): (r: real)
    requires lo <= hi
    ensures lo <= r <= hi
    ensures lo <= x <= hi ==> r == x
    ensures x <= lo ==> r == lo
    ensures hi <= x ==> r == hi
  {
    Max(lo, Min(hi, x))
  }
}

=== FILE: workloads.dfy ===
/** The persisted workload rows and the window queries the green-score endpoint runs
    over them, read as functions of an in-memory sequence of rows. */
module Workloads {
  import opened Values
  import opened Sql

  /** One row of the `workloads` table, as far as the queries read it. Timestamps are
      milliseconds since the epoch; `partitionedScanPct` is `raw->>'partitionedScanPct'`. */
  datatype WorkloadRow = WorkloadRow(
    source: string,
    runId: Option<string>,
    computeType: Option<string>,
    regionCode: Option<string>,
    startedAt: int,
    endedAt: Option<int>,
    estKwh: Option<real>,
    estCo2eKg: Option<real>,
    bytesRead: Option<real>,
    bytesWritten: Option<real>,
    partitionedScanPct: Option<real>)

  /** `started_at >= from AND started_at < to`. */
  predicate InWindow(r: WorkloadRow, from: int, to: int) {
    from <= r.startedAt < to
  }

  /** The rows a `WHERE started_at >= $1 AND started_at < $2` clause keeps, in order. */
  function Window(rows: seq<WorkloadRow>, from: int, to: int): (w: seq<WorkloadRow>)
    ensures |w| <= |rows|
    ensures forall r :: r in w <==> r in rows && InWindow(r, from, to)
  {
    if rows == [] then []
    else if InWindow(rows[0], from, to) then [rows[0]] + Window(rows[1..], from, to)
    else Window(rows[1..], from, to)
  }

  /** `COALESCE(bytes_read, 0) + COALESCE(bytes_written, 0)`. */
  function BytesIO(r: WorkloadRow): (b: real)
    ensures r.bytesRead.None? && r.bytesWritten.None? ==> b == 0.0
    ensures r.bytesWritten.None? ==> b == r.bytesRead.GetOr(0.0)
    ensures r.bytesRead.None? ==> b == r.bytesWritten.GetOr(0.0)
    ensures r.bytesRead.Some? && r.bytesWritten.Some? ==> b == r.bytesRead.value + r.bytesWritten.value
    ensures (r.bytesRead.Some? ==> r.bytesRead.value >= 0.0) && (r.bytesWritten.Some? ==> r.bytesWritten.value >= 0.0)
      ==> b >= 0.0
  {
    r.bytesRead.GetOr(0.0) + r.bytesWritten.GetOr(0.0)
  }

  function Co2eColumn(rows: seq<WorkloadRow>): seq<Option<real>> {
    seq(|rows|, i requires 0 <= i < |rows| => rows[i].estCo2eKg)
  }

  function KwhColumn(rows: seq<WorkloadRow>): seq<Option<real>> {
    seq(|rows|, i requires 0 <= i < |rows| => rows[i].estKwh)
  }

  function BytesIOColumn(rows: seq<WorkloadRow>): seq<Option<real>> {
    seq(|rows|, i requires 0 <= i < |rows| => Some(BytesIO(rows[i])))
  }

  function ComputeTypeColumn(rows: seq<WorkloadRow>): seq<Option<string>> {
    seq(|rows|, i requires 0 <= i < |rows| => rows[i].computeType)
  }

  function RegionColumn(rows: seq<WorkloadRow>): seq<Option<string>> {
    seq(|rows|, i requires 0 <= i < |rows| => rows[i].regionCode)
  }

  function EndedColumn(rows: seq<WorkloadRow>): seq<Option<int>> {
    seq(|rows|, i requires 0 <= i < |rows| => rows[i].endedAt)
  }

  /** `COALESCE((raw->>'partitionedScanPct')::numeric, 0.5)` per row. */
  function PartitionColumn(rows: seq<WorkloadRow>): seq<Option<real>> {
    seq(|rows|, i requires 0 <= i < |rows| => Some(rows[i].partitionedScanPct.GetOr(0.5)))
  }

  datatype Totals = Totals(co2eKg: real, bytesIO: real)

  /** The totals query: emissions and bytes of the rows started in [from, to), NULL read as 0. */
  function WindowTotals(rows: seq<WorkloadRow>, from: int, to: int): (t: Totals)
    ensures t.co2eKg == ZeroSum(Co2eColumn(Window(rows, from, to)))
    ensures t.bytesIO == ZeroSum(BytesIOColumn(Window(rows, from, to)))
  {
    var w := Window(rows, from, to);
    Totals(Sum(Co2eColumn(w)).GetOr(0.0), Sum(BytesIOColumn(w)).GetOr(0.0))
  }

  /** The latest-run query: `MAX(ended_at)` over every row, whatever the window. */
  function LatestEnded(rows: seq<WorkloadRow>): (m: Option<int>)
    ensures m.None? <==> forall i :: 0 <= i < |rows| ==> rows[i].endedAt.None?
    ensures m.Some? ==> exists i :: 0 <= i < |rows| && rows[i].endedAt == m
    ensures m.Some? ==> forall i :: 0 <= i < |rows| && rows[i].endedAt.Some? ==> rows[i].endedAt.value <= m.value
  {
    var col := EndedColumn(rows);
    assert forall i :: 0 <= i < |rows| ==> col[i] == rows[i].endedAt;
    var m := MaxTime(col);
    assert m.Some? ==> exists i :: 0 <= i < |col| && col[i] == m;
    m
  }

  /** The partitioning query: the average of the per-row partition signal over the window,
      each missing signal counting as 0.5; NULL when the window is empty. */
  function PartitionAvg(rows: seq<WorkloadRow>, from: int, to: int): (a: Option<real>)
    ensures a.None? <==> Window(rows, from, to) == []
    ensures a.Some? ==> a.value == ZeroSum(PartitionColumn(Window(rows, from, to))) / (|Window(rows, from, to)| as real)
  {
    var col := PartitionColumn(Window(rows, from, to));
    assert forall i :: 0 <= i < |col| ==> col[i].Some?;
    AllPresentCounted(col);
    Avg(col)
  }

  // ---------------------------------------------------------------------------
  // Properties of the window queries

  lemma ColumnsCons(r: WorkloadRow, rows: seq<WorkloadRow>)
    ensures Co2eColumn([r] + rows) == [r.estCo2eKg] + Co2eColumn(rows)
    ensures BytesIOColumn([r] + rows) == [Some(BytesIO(r))] + BytesIOColumn(rows)
    ensures KwhColumn([r] + rows) == [r.estKwh] + KwhColumn(rows)
    ensures ComputeTypeColumn([r] + rows) == [r.computeType] + ComputeTypeColumn(rows)
    ensures RegionColumn([r] + rows) == [r.regionCode] + RegionColumn(rows)
    ensures EndedColumn([r] + rows) == [r.endedAt] + EndedColumn(rows)
    ensures PartitionColumn([r] + rows) == [Some(r.partitionedScanPct.GetOr(0.5))] + PartitionColumn(rows)
  {
  }

  /** The window keeps every copy of a row in it, so `SUM` and `COUNT` see each copy. */
  lemma {:induction false} WindowKeepsCopies(rows: seq<WorkloadRow>, from: int, to: int, r: WorkloadRow)
    ensures multiset(Window(rows, from, to))[r] == if InWindow(r, from, to) then multiset(rows)[r] else 0
  {
    if rows != [] {
      WindowKeepsCopies(rows[1..], from, to, r);
      assert rows == [rows[0]] + rows[1..];
    }
  }

  /** Unfolds the window one row at a time. */
  lemma WindowCons(rows: seq<WorkloadRow>, from: int, to: int)
    requires rows != []
    ensures Window(rows, from, to)
      == (if InWindow(rows[0], from, to) then [rows[0]] else []) + Window(rows[1..], from, to)
  {
  }

  /** Totals over adjacent windows [a, b) and [b, c) add up to the totals over [a, c). */
  lemma {:induction false} WindowTotalsAdditive(rows: seq<WorkloadRow>, a: int, b: int, c: int)
    requires a <= b <= c
    ensures WindowTotals(rows, a, c).co2eKg == WindowTotals(rows, a, b).co2eKg + WindowTotals(rows, b, c).co2eKg
    ensures WindowTotals(rows, a, c).bytesIO == WindowTotals(rows, a, b).bytesIO + WindowTotals(rows, b, c).bytesIO
  {
    if rows != [] {
      var r, rest := rows[0], rows[1..];
      WindowTotalsAdditive(rest, a, b, c);
      WindowCons(rows, a, c);
      WindowCons(rows, a, b);
      WindowCons(rows, b, c);
      if InWindow(r, a, c) {
        ColumnsCons(r, Window(rest, a, c));
        ZeroSumCons(r.estCo2eKg, Co2eColumn(Window(rest, a, c)));
        ZeroSumCons(Some(BytesIO(r)), BytesIOColumn(Window(rest, a, c)));
        if InWindow(r, a, b) {
          ColumnsCons(r, Window(rest, a, b));
          ZeroSumCons(r.estCo2eKg, Co2eColumn(Window(rest, a, b)));
          ZeroSumCons(Some(BytesIO(r)), BytesIOColumn(Window(rest, a, b)));
        } else {
          ColumnsCons(r, Window(rest, b, c));
          ZeroSumCons(r.estCo2eKg, Co2eColumn(Window(rest, b, c)));
          ZeroSumCons(Some(BytesIO(r)), BytesIOColumn(Window(rest, b, c)));
        }
      }
    }
  }

  lemma {:induction false} NoRowInWindow(rows: seq<WorkloadRow>, from: int, to: int)
    requires forall i :: 0 <= i < |rows| ==> !InWindow(rows[i], from, to)
    ensures Window(rows, from, to) == []
  {
    if rows != [] {
      assert !InWindow(rows[0], from, to);
      NoRowInWindow(rows[1..], from, to);
    }
  }

  /** A window containing no row sums to zero. */
  lemma EmptyWindowTotals(rows: seq<WorkloadRow>, from: int, to: int)
    requires forall i :: 0 <= i < |rows| ==> !InWindow(rows[i], from, to)
    ensures WindowTotals(rows, from, to) == Totals(0.0, 0.0)
  {
    NoRowInWindow(rows, from, to);
    assert Co2eColumn([]) == [] && BytesIOColumn([]) == [];
  }

  /** A window whose end is not after its start holds nothing and sums to zero. */
  lemma InvertedWindowTotals(rows: seq<WorkloadRow>, from: int, to: int)
    requires to <= from
    ensures Window(rows, from, to) == []
    ensures WindowTotals(rows, from, to) == Totals(0.0, 0.0)
  {
    NoRowInWindow(rows, from, to);
    EmptyWindowTotals(rows, from, to);
  }

  /** With every signal in [0, 1] (or missing), the partition average lies in [0, 1]. */
  lemma PartitionAvgBounds(rows: seq<WorkloadRow>, from: int, to: int)
    requires forall i :: 0 <= i < |rows| && rows[i].partitionedScanPct.Some? ==>
      0.0 <= rows[i].partitionedScanPct.value <= 1.0
    ensures PartitionAvg(rows, from, to).Some? ==> 0.0 <= PartitionAvg(rows, from, to).value <= 1.0
  {
    var w := Window(rows, from, to);
    var col := PartitionColumn(w);
    forall i | 0 <= i < |col|
      ensures col[i].Some? && 0.0 <= col[i].value <= 1.0
    {
      assert w[i] in rows;
    }
    ZeroSumUnitBounds(col);
    if col != [] {
      UnitMean(ZeroSum(col), |col| as real);
    }
  }

  lemma UnitMean(s: real, n: real)
    requires n > 0.0 && 0.0 <= s <= n
    ensures 0.0 <= s / n <= 1.0
  {
  }

  /** When no row of a non-empty window carries the signal, the average is exactly 0.5. */
  lemma PartitionAvgAllMissing(rows: seq<WorkloadRow>, from: int, to: int)
    requires forall i :: 0 <= i < |rows| ==> rows[i].partitionedScanPct.None?
    requires Window(rows, from, to) != []
    ensures PartitionAvg(rows, from, to) == Some(0.5)
  {
    var w := Window(rows, from, to);
    var col := PartitionColumn(w);
    forall i | 0 <= i < |col|
      ensures col[i] == Some(0.5)
    {
      assert w[i] in rows;
    }
    AvgConstant(col, 0.5);
  }

  /** The stored signal is what is averaged: when every row of a non-empty window stores
      the same fraction v, the average is exactly v. */
  lemma PartitionAvgUniform(rows: seq<WorkloadRow>, from: int, to: int, v: real)
    requires forall i :: 0 <= i < |rows| && InWindow(rows[i], from, to) ==> rows[i].partitionedScanPct == Some(v)
    requires Window(rows, from, to) != []
    ensures PartitionAvg(rows, from, to) == Some(v)
  {
    UniformColumn(rows, from, to, v);
    AvgConstant(PartitionColumn(Window(rows, from, to)), v);
  }

  lemma UniformColumn(rows: seq<WorkloadRow>, from: int, to: int, v: real)
    requires forall i :: 0 <= i < |rows| && InWindow(rows[i], from, to) ==> rows[i].partitionedScanPct == Some(v)
    ensures forall i :: 0 <= i < |PartitionColumn(Window(rows, from, to))| ==>
      PartitionColumn(Window(rows, from, to))[i] == Some(v)
  {
    var w := Window(rows, from, to);
    forall i | 0 <= i < |PartitionColumn(w)|
      ensures PartitionColumn(w)[i] == Some(v)
    {
      assert w[i] in rows && InWindow(w[i], from, to);
    }
  }
}
